=== FILE: README.md ===
# b3hash core in Dafny

A Dafny model of the core of `b3hash`, a library that fingerprints a directory.
It walks every visible regular file beneath a root, hashes each file with
BLAKE3, and sorts the records by path. From those records it either folds a
single aggregate digest (`hash_directory`) or writes a line-oriented hashfile
`.b3hash_v1` (`create_hashfile`). A later call re-reads that file and reports
every file that is missing or whose digest changed (`validate_hashfile`).

How the model stands in for the outside world:

- **File system.** A finite tree of `FsTree.Node`s. Every place where the
  source can meet an I/O error has an error slot on the node: a directory
  listing that fails, a listing item that cannot be read, metadata that
  cannot be read, a file whose contents cannot be read. Symbolic links,
  sockets and the like are `Special` nodes.
- **Hashing.** BLAKE3 is a parameter `blake3: Bytes -> Digest`. The hex
  encoding and decoding of digests is modelled concretely.
- **Build target.** `Types.Target` carries `cfg!(windows)` and
  `cfg!(target_arch = "x86_64")`.
- **Working directory.** The hashfile lives in a second tree, `cwd`. Writing
  it yields a new tree. When `cwd` is the hashed root, the lemmas show that
  the new hidden entry changes nothing the walk or the validation sees.
- **Paths.** Byte strings. The walker returns chains of names below the root,
  and `Paths.FullPath` renders a chain the way `Utf8Path::join` would.

Where the code and its prose disagree, the model follows the code:

- **Sort order.** `sort_unstable` on `Utf8PathBuf` compares paths component by
  component (`Paths.PathLt`), not byte by byte. For example, `a/b` sorts
  before `a-b`.
- **Errors.** A parallel `collect` into `Result` returns one of the errors.
  The model returns the first one. The contracts promise only that the call
  fails exactly when some item fails, and that the error reported belongs to
  a failing item.
- **Aggregate input.** The loop in `hash_directory` feeds each digest and path
  with no separator in between. `Lib.AggregateInputAmbiguous` shows two
  different record lists that feed the aggregate hasher the same bytes.

## Model

| member | source | states |
|---|---|---|
| Util.OiVei | src/util.rs:84-97 | length is kept; on Windows every backslash becomes '/', so none is left, and every other byte is kept; elsewhere the path is unchanged |
| Util.OiVeiIdempotent | src/util.rs:86-97 | rewriting separators twice is the same as rewriting once |
| Util.OiVeiJoinNames | src/util.rs:74-77 | a relative path joined with the platform separator comes out '/'-joined, on every target |
| Util.RelativePath | src/util.rs:49-53 | the intended strip of `dir_path`: the relative path is the names joined by the separator, and joining it back to `dir_path` rebuilds the walked path |
| Util.RelativePathAsWritten | src/util.rs:53-74 | the `get_unchecked(prefix_len..)` strip: `len()+1` bytes shorter than the walked path; the names joined by the main separator when the walk put a separator after `dir_path`, and that without its first byte when it put none |
| Util.StripAgreesWhenSepInserted | src/util.rs:53 | when the walk put a separator after `dir_path` (it does not end in a separator and is not a bare Windows drive such as `C:`), stripping `len()+1` bytes gives exactly the relative path |
| Util.StripAsWrittenDropsAByte | src/util.rs:53 | when the walk put no separator after `dir_path` (it ends in a separator, or is a bare Windows drive such as `C:`), stripping `len()+1` bytes also drops the first byte of the relative path |
| Util.StripAsWrittenCounterexample | src/util.rs:72-74 | hashing `/` with a top-level file `ab` records the path as `b` |
| Util.RecordPath | src/util.rs:53-77 | the path `hash_files` records, from the strip as written: when the walk put a separator after `dir_path`, the names joined by '/', whose components give the names back; when it put none (`dir_path` ends in a separator or is a bare Windows drive such as `C:`), that joined path without its first byte |
| Util.BareDriveDropsAByte | src/util.rs:53 | below the bare Windows drive `C:`, the file `ab` is recorded as `b` |
| Util.IntendedRecordPath | src/util.rs:49-53 | the record path from the corrected strip: the names joined by '/' for every `dir_path`, whose components give the names back |
| Util.RecordPathIsIntended | src/util.rs:49-53 | the recorded path equals the intended one exactly when the walk put a separator after `dir_path` |
| Util.HashRecord | src/util.rs:60-80 | one file's record: it fails exactly when reading the file fails, with that error; otherwise it holds the file's digest and its byte count; its path is the names joined by '/' below a `dir_path` the walk put a separator after, and that path without its first byte below one it put none after (a separator-ended `dir_path` or a bare drive such as `C:`) |
| Util.SortedWalk | src/util.rs:55-56 | the sorted file list is strictly increasing, holds exactly the visible files, and every path in it is a non-empty chain of valid names |
| Order.Sort | src/util.rs:56 | `sort_unstable`: the result is a permutation of the input, sorted under a strict total order; `Order.SortIsCanonical` shows every permutation sorts to the same list |
| Util.HashEach | src/util.rs:58-81 | one record per path, in order, each the record of that path; any unreadable file fails the whole map with that file's error |
| Util.RecordsInPathOrder | src/util.rs:14-15 | below a `dir_path` the walk put a separator after, records made from sorted paths are strictly increasing in path order |
| Util.HashFiles | src/util.rs:48-82 | succeeds exactly when the walk lists and every visible file reads; a failed walk fails with an error the walk can stop at; a failure after a good walk is some visible file's read error; the records match the sorted walk one to one, whatever order the walk met the files in; below a `dir_path` the walk put a separator after, the records are strictly increasing by path |
| Util.SnapshotPairMap | src/types.rs:38-45 | below a `dir_path` the walk put a separator after, a map built from the records through the `(String, Hash)` conversion sends every record's path to that record's digest |
| Util.SerializeLength | src/util.rs:100-115 | the document takes 64 + |path| + 2 bytes per record |
| Util.Serialize | src/util.rs:100-115 | the document is empty exactly when there are no records, and otherwise ends in a line feed; `Util.SerializeLength` gives its length and `Util.LinesOfSerialize` shows its lines are the records' lines |
| Util.EncodeLine | src/util.rs:107-112 | one record's line is 64 hex digits, a space and the path, 65 bytes longer than the path, and has no line feed or final carriage return when the path has none |
| Util.SerializeAppend | src/util.rs:103-114 | each fold step appends the record's hex digest, a space, its path and a line feed |
| Util.IndexOf | src/util.rs:143 | finds the first occurrence of a byte, and finds nothing exactly when the byte is absent |
| Util.Lines | src/util.rs:136-137 | no line contains a line feed, and an empty document has no lines |
| Util.LinesOfLine | src/util.rs:137 | splitting into lines undoes terminating a plain line with a line feed |
| Util.SplitOnce | src/util.rs:143 | no split exactly when the delimiter is absent; otherwise the input is the head, the delimiter and the tail, and the head holds no delimiter |
| Util.SplitEncodedLine | src/util.rs:143-147 | a serialized line splits back into the hex digest and the path, and the hex decodes to the digest |
| Util.LinesOfSerialize | src/util.rs:100-115 | when no path holds a line feed or ends in a carriage return, the document's lines are the records' lines, one per record |
| Util.LineFeedInPathSplitsRecord | src/util.rs:111-112 | a path with a line feed is read back as two lines, the second of which does not parse as a record |
| Util.HashEq | src/util.rs:202-213 | on every target, true exactly when the digests are equal |
| Util.TryExists | src/util.rs:155 | `Ok(true)` exactly when the path resolves to a node; it fails exactly when resolving fails with an error other than not-found, and with that error; a not-found error is `Ok(false)` |
| Util.Resolve | src/util.rs:152-155 | resolving a line's path is looking up its names, except that a path ending in a separator or `.` resolves only to a directory and fails with NotADirectory on anything else |
| Util.Open | src/util.rs:156 | opening a line's path reads the file its names lead to, and never succeeds for a path ending in a separator or `.` |
| Util.CheckLine | src/util.rs:138-190 | a line adds nothing exactly when it parses and names an existing file with an equal digest; no space gives a NotFound error naming the line; bad hex gives InvalidData; the line is reported exactly when its file is missing or changed, and then as `dir_path` joined with the line's path; a resolution error other than not-found, and a path that exists but fails to open or read, are returned as errors |
| Util.TrailingSepNamesNoFile | src/util.rs:152-175 | below a directory holding the file `a`, the line for `a/` fails with NotADirectory instead of passing |
| Util.Collect | src/util.rs:138-192 | succeeds exactly when no outcome is an error; an error is some outcome's error; the list is empty exactly when every outcome is nothing; it holds exactly the reported paths |
| Util.CollectLines | src/util.rs:192-199 | the collect succeeds exactly when no line errs; it is empty exactly when every line holds |
| Util.CollectReported | src/util.rs:161-171 | the collected paths are exactly the joined paths of the lines whose file is missing or changed |
| Util.ValidateLines | src/util.rs:136-199 | checking a document's lines succeeds exactly when no line errs; it gives `None` exactly when every line names a readable file with the digest written, so no lines give `None`; a `Some` list is non-empty and holds exactly the rewritten `dir_path` joined with the path of each line whose file is missing or changed |
| Util.ValidateData | src/util.rs:122-200 | an empty document validates with `None`; a document with a line that has no space, such as a blank line inside it, is an error rather than a report |
| Util.RecordLineHolds | src/util.rs:100-115 | below a `dir_path` the walk put a separator after, the line written for a file passes validation while the file is unchanged |
| Util.ValidateSerialized | src/util.rs:100-200 | below a `dir_path` the walk put a separator after, validating the document serialized from a snapshot, against the same tree, reports no failures |
| Util.AsWrittenCollides | src/util.rs:53-77 | below a `dir_path` the walk put no separator after, two top-level files whose names differ only in the first byte get the same record path |
| Util.AsWrittenCollidesExample | src/util.rs:53-77 | below `/`, files `ab` and `cb` are both recorded as `b` |
| Util.AsWrittenUnsorted | src/util.rs:14-15 | below a `dir_path` the walk put no separator after, two top-level files whose names sort one way and whose tails sort the other give records out of path order |
| Util.AsWrittenUnsortedExample | src/util.rs:53-77 | below `/`, `ab` and `ba` are recorded as `b` then `a`, and `a` sorts before `b` |
| Util.AsWrittenDocumentReports | src/util.rs:48-200 | below a `dir_path` the walk put no separator after, validating the document hashed from a directory with one top-level file reports that file as missing, though nothing changed |
| Util.AsWrittenDocumentExample | src/util.rs:48-200 | below `d/`, the document for a single file `ab` validates to the report `d/b` |
| Fs.PushEntries | src/fs.rs:33-56 | succeeds exactly when the listing and every visible item's metadata read; a failure carries the error of a non-directory, of the listing, or of the first failing item; the pushed files and the files beneath the pushed folders are exactly the directory's visible files; every pushed folder is a visible subdirectory; hidden entries and everything beneath them are skipped; the pushed folders are strictly smaller than the directory |
| Fs.GetFiles | src/fs.rs:15-24 | succeeds exactly when every directory the walk enters lists; a failure carries an error the walk can stop at, passed up unchanged; the result is the visible regular files beneath the root, up to order; a path is in it exactly when it leads through visible directories to a visible file |
| FsTree.WalkErrNotOk | src/fs.rs:15-24 | a tree the walk can stop at an error in is not one the walk succeeds on |
| Fs.WalkStep | src/fs.rs:20-22 | one pop-and-push turn keeps the account of found and pending files, keeps whether the walk can succeed, and shrinks the stack's measure, so the walk terminates |
| Fs.WalkedMembers | src/fs.rs:9-13 | what the walk collects is exactly the set of paths to visible files |
| Fs.WalkExactlyOnce | src/fs.rs:9-13 | with distinct names per directory, each visible file is listed once |
| FsTree.FilesInMembers | src/fs.rs:26-31 | the reference listing holds exactly the paths that lead through visible directories to a visible regular file |
| FsTree.LookupVisibleFile | src/util.rs:71 | on a tree the walk can list, a walked path opens a regular file |
| FsTree.Lookup | src/util.rs:152-155 | an empty path resolves to the node; a name below a non-directory is a NotADirectory error; an absent name resolves to nothing |
| FsTree.ReadFile | src/util.rs:156 | an absent file is a NotFound error; a successful read returns the contents of the regular file the path names |
| Lib.DirName | src/lib.rs:42-45 | the last component of `dir_path` when `file_name` finds one, or `dir_path` itself when there is none |
| Lib.DriveRootNamesItself | src/lib.rs:42-45 | on Windows `C:\` has no file name and names itself, and `C:` joined with `ab` is `C:ab` |
| Paths.FileName | src/lib.rs:42-43 | `file_name` is the last component when it is a normal name; there is none exactly when there are no components, the last is `..`, or the only one is a Windows drive prefix |
| Lib.DirNameOfJoin | src/lib.rs:42-45 | a directory reached by joining a name is named by that name |
| Lib.Aggregate | src/lib.rs:35-39 | feeds every record's digest bytes and path, in order, and sums the sizes modulo 2^64 |
| Lib.HashDirectory | src/lib.rs:18-50 | succeeds exactly when `hash_files` does, and fails with the walk's or a file's error as it does; the files are `hash_files`' records; the hash is BLAKE3 of the aggregate input; the size is the sum of the record sizes modulo 2^64, and exactly that sum while it is below 2^64; the name is `dir_name` |
| Lib.AggregateInputAmbiguous | src/lib.rs:35-37 | one record and two records can feed the aggregate hasher the same bytes |
| Lib.WriteHashfile | src/lib.rs:55-58 | the write succeeds exactly when the current directory can be written, and it keeps the directory's listing state |
| Lib.WriteThenRead | src/lib.rs:58-66 | reading the hashfile after writing it gives back the written document |
| Lib.WriteIsSameButHidden | src/lib.rs:14 | writing the hashfile changes only a hidden entry of the current directory |
| Lib.HashfileInvisible | src/lib.rs:14 | after the hashfile is written into the hashed directory, the walk lists the same files, succeeds exactly as before, the tree stays well formed, and every path with a visible first name resolves as before |
| Lib.CreateHashfile | src/lib.rs:54-60 | succeeds exactly when `hash_files` succeeds and the write goes through; it fails with the walk's or a file's error, then with the write's; after hashing, the result is the write of a snapshot's serialized records |
| Lib.ReadHashfile | src/lib.rs:64-66 | reading the hashfile gives the contents of the current directory's readable `.b3hash_v1` entry, and NotFound when there is no such entry |
| Lib.ValidateHashfile | src/lib.rs:64-68 | a read error is returned as is; a missing hashfile is a NotFound error; otherwise the result is that of `validate_data` on the file's contents |
| Lib.SnapshotSurvivesWrite | src/lib.rs:54-60 | the records of a directory are still its records after the hashfile is written into it |
| Lib.PersistThenValidate | src/lib.rs:54-68 | below a `dir_path` the walk put a separator after, validating right after creating the hashfile reports no failures |
| Lib.PersistInPlaceThenValidate | src/lib.rs:54-68 | the same when the hashed directory is the current directory |
| Lib.PersistAsWrittenReports | src/lib.rs:54-68 | below a `dir_path` the walk put no separator after, creating the hashfile for a directory with one top-level file and validating against it reports that file as missing |
| Types.PairMap | src/types.rs:38-45 | the map built through the `(String, Hash)` conversion has exactly the records' paths as keys |
| Types.HashedFile.Deref | src/types.rs:30-37 | a record reads as the same path its `(String, Hash)` conversion keeps |
| Types.HashedFile.IntoPair | src/types.rs:39-45 | the `(String, Hash)` conversion drops only the size: the pair and the size give the record back |
| Types.HashedDirectory.Deref | src/types.rs:13-20 | a hashed directory reads as exactly its records, each reading as its path |
| Types.PairMapLookup | src/types.rs:38-45 | when the paths are distinct, each record's path maps to that record's digest |
| Blake3.FromHexToHex | src/util.rs:107 | the hex the document stores decodes back to the digest |
| Blake3.FromHex | src/util.rs:147 | decoding succeeds exactly on 64 hex digits of either case; any other length is a length error |
| Blake3.ConstantTimeEq | src/util.rs:209-211 | `Hash::eq` is true exactly when the digests are equal |
| Paths.WalkedPathOrder | src/util.rs:56 | the component order of two walked paths under the same root is the order of their name chains |
| Paths.FullPathShape | src/fs.rs:47 | a walked path is the root, a separator where `push` puts one (not after a trailing separator or a bare Windows drive), and the names joined by the separator |

## Left out

- BLAKE3 itself is a parameter. Only its digest type and hex form are modelled.
- Memory mapping in `update_mmap` is modelled as reading the whole file. The digest and the byte count are what it contributes.
- Rayon and the thread pool are left out. This covers `with_threads` and the thread-count variants in `src/lib.rs:70-107`. The parallel map and the `par_lines` split are modelled sequentially, and which error a parallel collect picks is left open.
- Concurrent changes to the file system during a walk or a validation are left out. The tree is fixed for the length of one call.
- Constant-time behaviour of `hash_eq` is a timing property and is not modelled. Only the result is modelled.
- The `unsafe` UTF-8 steps are left out. `get_unchecked` and `from_utf8_unchecked` are modelled as plain byte slicing and byte strings.
- `STARTING_CAP`, `STARTING_CAP_FILES` and `STARTING_CAP_FOLDERS` are only allocation hints, so they are left out.
- `src/main.rs`, the command-line front end, is not part of this model.
- Symbolic links are never followed. The walk drops them, as `file_type()` does not follow them. Validation treats them as unreadable rather than resolving them.
- Path resolution in validation splits a line's path into normal components below the hashed root. `..` is matched literally, and an absolute path in a line is not re-rooted.
- The detail text of I/O errors is not modelled, except for the missing-delimiter error, which carries the offending line. The hex error's message is modelled as the offending input.
- Types.HashedFile: `size` is a `nat`. The source uses `u64`, and a single file's byte count cannot reach 2^64, so no wrap-around is modelled there.
- Util.ValidateSerialized: requires that no record path contains a line feed or ends in a carriage return. `Util.LineFeedInPathSplitsRecord` shows why the round trip does not hold for such paths.
- Util.ValidateSerialized: also requires that the walk put a separator after `dir_path`. Below a separator-ended `dir_path` or a bare drive the round trip fails (`Util.AsWrittenDocumentReports`).
- Lib.PersistThenValidate: requires the same plain-path and separator conditions as `Util.ValidateSerialized`, for the same reasons (`Lib.PersistAsWrittenReports`).
- Lib.PersistInPlaceThenValidate: requires the same conditions as `Lib.PersistThenValidate`.
- Util.HashFiles: promises path order only when the walk put a separator after `dir_path`. Otherwise the records can be out of order (`Util.AsWrittenUnsorted`) and can share a path (`Util.AsWrittenCollides`).
- Util.RecordsInPathOrder: requires the separator condition, for the reason given under `Util.HashFiles`.
- Util.SnapshotPairMap: requires the separator condition, because otherwise two records can share a key (`Util.AsWrittenCollides`).
- Util.RecordLineHolds: requires the separator condition, because otherwise the line names a path that has lost its first byte.
- Lib.DirName: of the Windows path prefixes only a drive such as `C:` is modelled. UNC and verbatim prefixes (`\\server\share`, `\\?\C:\`) are read as ordinary names, so the model finds a file name where camino finds none.
- Paths.FileName: the same Windows-prefix gap as `Lib.DirName`.
- Util.HashFiles: `root` stands for the directory `dir_path` names. The empty `dir_path` names none, since `read_dir("")` fails with NotFound. The model does not tie `root` to `dir_path`, so its results for an empty `dir_path` have no counterpart in the source.
- Util.CheckLine: a line path that ends in a separator or `.` follows Unix, where reaching a file fails with NotADirectory. Windows drops a trailing `.` and reports a different error kind for a trailing separator, and this is not modelled. A symbolic link reached by such a path also fails with NotADirectory, where the kernel would follow it to a directory.
- Lib.HashDirectory: follows the release build, where `total_bytes_hashed += file.size` wraps modulo 2^64. A debug build panics on that overflow instead.
- `read_dir_utf8` yields an error for an entry whose name is not valid UTF-8, hidden or not. The tree's `BadEntry` listing item stands for that error; names are otherwise arbitrary bytes.
- Lib.CreateHashfile: the write's own I/O errors, such as a full disk, are one optional error parameter rather than a property of the tree.

## Findings

| source | as written | input that shows it | evidently intended | confidence | as-written member | corrected member |
|---|---|---|---|---|---|---|
| src/util.rs:53 | `prefix_len = dir_path.len() + 1` assumes the walk put one separator after `dir_path`. `Utf8Path::join` adds none when `dir_path` already ends in a separator, or on Windows is a bare drive such as `C:`. | `dir_path` = `/` with files `ab` and `cb` directly under it: both records say `b`; with `ab` below `d/`, validating the fresh hashfile reports `d/b` | strip `dir_path` and the separator the join actually inserted, giving `ab` | not executed | Util.RecordPath (shown by Util.StripAsWrittenCounterexample, Util.BareDriveDropsAByte, Util.AsWrittenCollides, Util.AsWrittenUnsorted, Util.AsWrittenDocumentReports and Lib.PersistAsWrittenReports) | Util.RelativePath and Util.IntendedRecordPath (related by Util.RecordPathIsIntended) |

The records of `Util.HashRecord`, `Util.HashFiles`, `Lib.HashDirectory` and `Lib.CreateHashfile` follow the code as written. The properties the code intends for them (path order, distinct paths, a clean round trip) are proved for the case where the strip as written and the corrected strip agree. That is when the walk put a separator after `dir_path` (`Util.StripAgreesWhenSepInserted`, `Util.RecordPathIsIntended`).

=== FILE: blake3.dfy ===
/** The surface of the `blake3` crate the core relies on. The hash function
    itself is not modelled: it is any total function from bytes to 32-byte
    digests (a `Hasher` value the caller supplies). Incremental hashing
    (`Hasher::update` called repeatedly) is hashing the concatenation of the
    updates. The hex codec and the constant-time equality are modelled after
    the crate's documented behaviour. */
module Blake3 {
  import opened Bytes
  import opened Wrappers

  const OUT_LEN: nat := 32
  const HEX_LEN: nat := 2 * OUT_LEN

  type Digest = d: Bytes | |d| == OUT_LEN witness seq(OUT_LEN, _ => 0)

  /** BLAKE3 as an uninterpreted total function. */
  type Hasher = Bytes -> Digest

  /** `Hash::from_hex` failures. */
  datatype HexError = InvalidLen(len: nat) | InvalidByte(b: byte)

  predicate IsLowerHexDigit(c: byte) {
    (0x30 <= c <= 0x39) || (0x61 <= c <= 0x66)
  }

  /** Digits `Hash::from_hex` accepts: both cases. */
  predicate IsHexDigit(c: byte) {
    IsLowerHexDigit(c) || (0x41 <= c <= 0x46)
  }

  function HexDigit(n: byte): (c: byte)
    requires n < 16
    ensures IsLowerHexDigit(c)
  {
    if n < 10 then 0x30 + n else 0x61 + (n - 10)
  }

  function HexValue(c: byte): (n: byte)
    requires IsHexDigit(c)
    ensures n < 16
  {
    if c <= 0x39 then c - 0x30 else if c >= 0x61 then c - 0x61 + 10 else c - 0x41 + 10
  }

  /** Two lowercase hex digits per byte, high nibble first. */
  function EncodeHex(b: Bytes): (s: Bytes)
    ensures |s| == 2 * |b|
    ensures forall i :: 0 <= i < |s| ==> IsLowerHexDigit(s[i])
  {
    if b == [] then [] else [HexDigit(b[0] >> 4), HexDigit(b[0] & 0xF)] + EncodeHex(b[1..])
  }

  /** Decodes digit pairs; the first non-hex digit is reported. */
  function DecodeHex(s: Bytes): (r: Result<Bytes, HexError>)
    requires |s| % 2 == 0
    ensures r.Success? ==> 2 * |r.value| == |s|
    ensures r.Success? <==> forall i :: 0 <= i < |s| ==> IsHexDigit(s[i])
    ensures r.Failure? ==> r.error.InvalidByte? && r.error.b in s && !IsHexDigit(r.error.b)
  {
    if s == [] then Success([])
    else if !IsHexDigit(s[0]) then Failure(InvalidByte(s[0]))
    else if !IsHexDigit(s[1]) then Failure(InvalidByte(s[1]))
    else
      var rest := DecodeHex(s[2..]);
      if rest.Failure? then Failure(rest.error)
      else Success([HexValue(s[0]) * 16 + HexValue(s[1])] + rest.value)
  }

  /** `Hash::to_hex`: 64 lowercase hex digits. */
  function ToHex(d: Digest): (s: Bytes)
    ensures |s| == HEX_LEN
    ensures forall i :: 0 <= i < |s| ==> IsLowerHexDigit(s[i])
  {
    EncodeHex(d)
  }

  /** `Hash::from_hex`: exactly 64 hex digits of either case, else an error. */
  function FromHex(s: Bytes): (r: Result<Digest, HexError>)
    ensures r.Success? <==> |s| == HEX_LEN && forall i :: 0 <= i < |s| ==> IsHexDigit(s[i])
    ensures |s| != HEX_LEN ==> r == Failure(InvalidLen(|s|))
  {
    if |s| != HEX_LEN then Failure(InvalidLen(|s|))
    else
      var d :- DecodeHex(s);
      Success(d)
  }

  lemma {:induction false} DecodeEncodeHex(b: Bytes)
    ensures DecodeHex(EncodeHex(b)) == Success(b)
  {
    if b != [] {
      var s := EncodeHex(b);
      assert s[2..] == EncodeHex(b[1..]);
      DecodeEncodeHex(b[1..]);
      var hi, lo := HexDigit(b[0] >> 4), HexDigit(b[0] & 0xF);
      assert s[0] == hi && s[1] == lo;
      assert HexValue(hi) * 16 + HexValue(lo) == b[0];
      assert DecodeHex(s) == Success([b[0]] + b[1..]);
      assert [b[0]] + b[1..] == b;
    }
  }

  /** Hex round trip: decoding what `ToHex` wrote gives back the digest. */
  lemma FromHexToHex(d: Digest)
    ensures FromHex(ToHex(d)) == Success(d)
  {
    DecodeEncodeHex(d);
  }

  /** OR-accumulated XOR of corresponding bytes; zero exactly on equal inputs. */
  function XorFold(a: Bytes, b: Bytes): (acc: byte)
    requires |a| == |b|
    ensures acc == 0 <==> a == b
  {
    if a == [] then 0
    else
      var rest := XorFold(a[1..], b[1..]);
      assert a == b <==> a[0] == b[0] && a[1..] == b[1..];
      (a[0] ^ b[0]) | rest
  }

  /** `Hash::eq`, which compares in constant time: true exactly on equal digests. */
  function ConstantTimeEq(x: Digest, y: Digest): (r: bool)
    ensures r <==> x == y
  {
    XorFold(x, y) == 0
  }
}

=== FILE: bytes.dfy ===
/** Byte strings. Rust `&str` paths and documents are UTF-8 byte strings, and
    every byte the core inspects (separators, '.', ' ', '\n', '\r') is ASCII,
    so the model works on bytes throughout. */
module Bytes {

  type byte = bv8
  type Bytes = seq<byte>
}

/** The part of `std::io::Error` the model keeps: its kind and a detail. */
module Io {
  import opened Bytes

  datatype ErrorKind =
    | NotFound
    | InvalidData
    | NotADirectory
    | IsADirectory
    | PermissionDenied
    | OtherKind

  /** `detail` carries the text the source puts into the message (a line of a
      hashfile, a hex field); errors raised by the file system carry any. */
  datatype IoError = IoError(kind: ErrorKind, detail: Bytes)
}

=== FILE: fs.dfy ===
/** The directory walk of `src/fs.rs`: a stack of folders seeded with the
    root, popped until empty, each popped folder's listing pushing its
    visible files to the result and its visible directories to the stack.
    Paths are kept as the chain of names below the root; `Paths.FullPath`
    renders the string `read_dir` would produce. */
module Fs {
  import opened Bytes
  import opened Wrappers
  import opened Io
  import opened Order
  import opened FsTree

  /** A folder on the stack: the names leading to it and the directory. */
  datatype Folder = Folder(chain: seq<Bytes>, node: Node)

  /** The files still to be found beneath the folders on the stack. */
  function Pending(fs: seq<Folder>): multiset<seq<Bytes>>
    decreases |fs|
  {
    if fs == [] then multiset{}
    else multiset(FilesIn(fs[0].node, fs[0].chain)) + Pending(fs[1..])
  }

  function PendingSize(fs: seq<Folder>): nat
    decreases |fs|
  {
    if fs == [] then 0 else Size(fs[0].node) + PendingSize(fs[1..])
  }

  predicate AllWalkOk(fs: seq<Folder>) {
    forall i :: 0 <= i < |fs| ==> WalkOk(fs[i].node)
  }

  lemma {:induction false} PendingAppend(a: seq<Folder>, b: seq<Folder>)
    ensures Pending(a + b) == Pending(a) + Pending(b)
    ensures PendingSize(a + b) == PendingSize(a) + PendingSize(b)
    decreases |a|
  {
    if a == [] {
      assert a + b == b;
    } else {
      assert (a + b)[1..] == a[1..] + b;
      PendingAppend(a[1..], b);
    }
  }

  lemma PendingPush(a: seq<Folder>, f: Folder)
    ensures Pending(a + [f]) == Pending(a) + multiset(FilesIn(f.node, f.chain))
    ensures PendingSize(a + [f]) == PendingSize(a) + Size(f.node)
  {
    PendingAppend(a, [f]);
    assert [f][1..] == [];
  }

  /** What one listing appends to the two stacks. */
  datatype Pushed = Pushed(files: seq<seq<Bytes>>, folders: seq<Folder>)

  /** The size an entry adds to its directory's `Size`. */
  function EntrySize(e: Entry): nat {
    if e.Entry? then Size(e.node) else 0
  }

  /** The first `i` listing items are readable entries. */
  predicate EntriesOk(node: Node, i: nat)
    requires node.Dir? && i <= |node.entries|
  {
    forall k :: 0 <= k < i ==> EntryOk(node.entries[k])
  }

  lemma PrefixStep(node: Node, i: nat)
    requires node.Dir? && i < |node.entries|
    ensures EntriesOk(node, i + 1) <==> EntriesOk(node, i) && EntryOk(node.entries[i])
  {
  }

  /** What one listing item makes `push_entries` append to `files`. */
  function FilePush(e: Entry, chain: seq<Bytes>): seq<seq<Bytes>> {
    if VisibleEntry(e) && e.node.File? then [chain + [e.name]] else []
  }

  /** What one listing item makes `push_entries` append to `folders`. */
  function FolderPush(e: Entry, chain: seq<Bytes>): seq<Folder> {
    if VisibleDir(e) then [Folder(chain + [e.name], e.node)] else []
  }

  /** What listing items `i..` append to `files`. */
  function FilesPushed(node: Node, i: nat, chain: seq<Bytes>): seq<seq<Bytes>>
    requires node.Dir? && i <= |node.entries|
    decreases |node.entries| - i
  {
    if i == |node.entries| then [] else FilePush(node.entries[i], chain) + FilesPushed(node, i + 1, chain)
  }

  /** What listing items `i..` append to `folders`. */
  function FoldersPushed(node: Node, i: nat, chain: seq<Bytes>): seq<Folder>
    requires node.Dir? && i <= |node.entries|
    decreases |node.entries| - i
  {
    if i == |node.entries| then [] else FolderPush(node.entries[i], chain) + FoldersPushed(node, i + 1, chain)
  }

  /** An entry's files are the file it pushes or the files beneath the
      folder it pushes. */
  lemma EntryAccount(e: Entry, chain: seq<Bytes>)
    ensures multiset(FilePush(e, chain)) + Pending(FolderPush(e, chain)) == multiset(EntryFiles(e, chain))
    ensures PendingSize(FolderPush(e, chain)) <= EntrySize(e)
    ensures AllWalkOk(FolderPush(e, chain)) <==> (VisibleDir(e) ==> WalkOk(e.node))
  {
    if VisibleDir(e) {
      var f := Folder(chain + [e.name], e.node);
      PendingPush([], f);
      AllWalkOkPush([], f);
      assert [] + [f] == [f];
    }
  }

  /** The files listing items `i..` push directly, or that lie beneath the
      folders they push, are the files of those entries. */
  lemma {:induction false} FilesAccount(node: Node, i: nat, chain: seq<Bytes>)
    requires node.Dir? && i <= |node.entries|
    ensures multiset(FilesPushed(node, i, chain)) + Pending(FoldersPushed(node, i, chain))
         == multiset(FilesFrom(node, i, chain))
    decreases |node.entries| - i
  {
    if i < |node.entries| {
      var e := node.entries[i];
      FilesAccount(node, i + 1, chain);
      EntryAccount(e, chain);
      PendingAppend(FolderPush(e, chain), FoldersPushed(node, i + 1, chain));
    }
  }

  lemma {:induction false} SizeAccount(node: Node, i: nat, chain: seq<Bytes>)
    requires node.Dir? && i <= |node.entries|
    ensures PendingSize(FoldersPushed(node, i, chain)) <= SizeFrom(node, i)
    decreases |node.entries| - i
  {
    if i < |node.entries| {
      var e := node.entries[i];
      SizeAccount(node, i + 1, chain);
      EntryAccount(e, chain);
      PendingAppend(FolderPush(e, chain), FoldersPushed(node, i + 1, chain));
    }
  }

  /** The visible directories among entries `i..` can be walked. */
  predicate ChildrenOkFrom(node: Node, i: nat)
    requires node.Dir? && i <= |node.entries|
  {
    forall k :: i <= k < |node.entries| && VisibleDir(node.entries[k]) ==> WalkOk(node.entries[k].node)
  }

  lemma {:induction false} WalkOkAccount(node: Node, i: nat, chain: seq<Bytes>)
    requires node.Dir? && i <= |node.entries|
    ensures AllWalkOk(FoldersPushed(node, i, chain)) <==> ChildrenOkFrom(node, i)
    decreases |node.entries| - i
  {
    if i < |node.entries| {
      var e := node.entries[i];
      WalkOkAccount(node, i + 1, chain);
      EntryAccount(e, chain);
      AllWalkOkAppend(FolderPush(e, chain), FoldersPushed(node, i + 1, chain));
    }
  }

  /** Appending entry `i`'s pushes moves them from the part of the listing
      still to read to the part already read. */
  lemma PushStep(node: Node, i: nat, chain: seq<Bytes>, files: seq<seq<Bytes>>, folders: seq<Folder>)
    requires node.Dir? && i < |node.entries|
    ensures (files + FilePush(node.entries[i], chain)) + FilesPushed(node, i + 1, chain)
         == files + FilesPushed(node, i, chain)
    ensures (folders + FolderPush(node.entries[i], chain)) + FoldersPushed(node, i + 1, chain)
         == folders + FoldersPushed(node, i, chain)
  {
  }

  /** Once the whole listing is read, what was pushed accounts for every
      file beneath the directory. */
  lemma ListingDone(node: Node, chain: seq<Bytes>, files: seq<seq<Bytes>>, folders: seq<Folder>)
    requires node.Dir?
    requires files + FilesPushed(node, |node.entries|, chain) == FilesPushed(node, 0, chain)
    requires folders + FoldersPushed(node, |node.entries|, chain) == FoldersPushed(node, 0, chain)
    ensures multiset(files) + Pending(folders) == multiset(FilesIn(node, chain))
    ensures PendingSize(folders) < Size(node)
    ensures AllWalkOk(folders) <==> ChildrenOkFrom(node, 0)
  {
    assert files == FilesPushed(node, 0, chain);
    assert folders == FoldersPushed(node, 0, chain);
    FilesAccount(node, 0, chain);
    SizeAccount(node, 0, chain);
    WalkOkAccount(node, 0, chain);
  }

  /** `push_entries`: lists `dir` once and returns what it appends to
      `files` (the visible regular files) and to `folders` (the visible
      directories). Fails on the first listing error, unreadable listing
      item, or unreadable type of a visible entry. Hidden entries are
      skipped whole; entries that are neither files nor directories are
      dropped. */
  method PushEntries(dir: Folder) returns (r: Result<Pushed, IoError>)
    ensures r.Success? <==> ListOk(dir.node)
    ensures r.Failure? ==> ListErr(dir.node, r.error)
    ensures r.Success? ==> forall f :: f in r.value.folders ==> IsChildDir(dir.node, f)
    ensures r.Success? ==>
      multiset(r.value.files) + Pending(r.value.folders) == multiset(FilesIn(dir.node, dir.chain))
    ensures r.Success? ==> PendingSize(r.value.folders) < Size(dir.node)
    ensures r.Success? ==> (AllWalkOk(r.value.folders) <==> WalkOk(dir.node))
  {
    var node := dir.node;
    if !node.Dir? {
      return Failure(IoError(NotADirectory, []));
    }
    if node.listErr.Some? {
      return Failure(node.listErr.value);
    }
    var es := node.entries;
    var files: seq<seq<Bytes>> := [];
    var folders: seq<Folder> := [];
    var i := 0;
    while i < |es|
      invariant 0 <= i <= |es|
      invariant files + FilesPushed(node, i, dir.chain) == FilesPushed(node, 0, dir.chain)
      invariant folders + FoldersPushed(node, i, dir.chain) == FoldersPushed(node, 0, dir.chain)
      invariant EntriesOk(node, i)
    {
      PrefixStep(node, i);
      var e := es[i];
      if e.BadEntry? {
        assert EntryErr(es[i], e.err);
        return Failure(e.err);
      }
      if !Hidden(e.name) && e.statErr.Some? {
        assert EntryErr(es[i], e.statErr.value);
        return Failure(e.statErr.value);
      }
      PushStep(node, i, dir.chain, files, folders);
      files, folders := files + FilePush(e, dir.chain), folders + FolderPush(e, dir.chain);
      i := i + 1;
    }
    ListingDone(node, dir.chain, files, folders);
    FoldersPushedChildren(node, 0, dir.chain);
    return Success(Pushed(files, folders));
  }

  /** `f` is one of the visible subdirectories of `node`. */
  predicate IsChildDir(node: Node, f: Folder) {
    node.Dir? && exists k :: 0 <= k < |node.entries| && VisibleDir(node.entries[k]) && f.node == node.entries[k].node
  }

  lemma {:induction false} FoldersPushedChildren(node: Node, i: nat, chain: seq<Bytes>)
    requires node.Dir? && i <= |node.entries|
    ensures forall f :: f in FoldersPushed(node, i, chain) ==> IsChildDir(node, f)
    decreases |node.entries| - i
  {
    if i < |node.entries| {
      FoldersPushedChildren(node, i + 1, chain);
      var e := node.entries[i];
      if VisibleDir(e) {
        assert IsChildDir(node, Folder(chain + [e.name], e.node));
      }
    }
  }

  /** Every error the walk from a folder on the stack can stop at is one the
      walk from the root can stop at. */
  ghost predicate ErrsReachRoot(root: Node, fs: seq<Folder>) {
    forall i, err :: 0 <= i < |fs| && WalkErr(fs[i].node, err) ==> WalkErr(root, err)
  }

  lemma ErrsReachRootStep(root: Node, rest: seq<Folder>, cur: Folder, pushed: seq<Folder>)
    requires ErrsReachRoot(root, rest + [cur])
    requires ListOk(cur.node)
    requires forall f :: f in pushed ==> IsChildDir(cur.node, f)
    ensures ErrsReachRoot(root, rest + pushed)
  {
    var before, after := rest + [cur], rest + pushed;
    forall i, err | 0 <= i < |after| && WalkErr(after[i].node, err) ensures WalkErr(root, err) {
      if i < |rest| {
        assert after[i] == before[i];
      } else {
        var f := pushed[i - |rest|];
        assert f == after[i] && f in pushed;
        var k :| 0 <= k < |cur.node.entries| && VisibleDir(cur.node.entries[k]) && f.node == cur.node.entries[k].node;
        assert WalkErr(cur.node, err);
        assert before[|rest|] == cur;
      }
    }
  }

  /** `get_files`: every visible regular file beneath `root`, each once, in
      an order the listing decides; or the first error met. */
  method GetFiles(root: Node) returns (r: Result<seq<seq<Bytes>>, IoError>)
    ensures r.Success? <==> WalkOk(root)
    ensures r.Failure? ==> WalkErr(root, r.error)
    ensures r.Success? ==> multiset(r.value) == multiset(FilesIn(root, []))
    ensures r.Success? ==> forall c :: c in r.value <==> VisibleFileAt(root, c)
  {
    var files: seq<seq<Bytes>> := [];
    var folders := [Folder([], root)];
    PendingPush([], Folder([], root));
    AllWalkOkPush([], Folder([], root));
    assert [] + [Folder([], root)] == folders;
    while folders != []
      invariant multiset(files) + Pending(folders) == multiset(FilesIn(root, []))
      invariant WalkOk(root) <==> AllWalkOk(folders)
      invariant ErrsReachRoot(root, folders)
      decreases PendingSize(folders)
    {
      var rest := folders[..|folders| - 1];
      var cur := folders[|folders| - 1];
      assert folders == rest + [cur];
      var pushed := PushEntries(cur);
      if pushed.Failure? {
        assert WalkErr(cur.node, pushed.error);
        assert WalkErr(folders[|folders| - 1].node, pushed.error);
        return Failure(pushed.error);
      }
      WalkStep(root, files, rest, cur, pushed.value);
      ErrsReachRootStep(root, rest, cur, pushed.value.folders);
      files, folders := files + pushed.value.files, rest + pushed.value.folders;
    }
    WalkedMembers(root, files);
    return Success(files);
  }

  /** One turn of the walk: popping a folder and pushing what its listing
      yields keeps the account of files found and still to find, keeps
      whether the walk can succeed, and shrinks the stack's measure. */
  lemma WalkStep(root: Node, files: seq<seq<Bytes>>, rest: seq<Folder>, cur: Folder, p: Pushed)
    requires multiset(files) + Pending(rest + [cur]) == multiset(FilesIn(root, []))
    requires WalkOk(root) <==> AllWalkOk(rest + [cur])
    requires multiset(p.files) + Pending(p.folders) == multiset(FilesIn(cur.node, cur.chain))
    requires PendingSize(p.folders) < Size(cur.node)
    requires AllWalkOk(p.folders) <==> WalkOk(cur.node)
    ensures multiset(files + p.files) + Pending(rest + p.folders) == multiset(FilesIn(root, []))
    ensures WalkOk(root) <==> AllWalkOk(rest + p.folders)
    ensures PendingSize(rest + p.folders) < PendingSize(rest + [cur])
  {
    PendingPush(rest, cur);
    AllWalkOkPush(rest, cur);
    PendingAppend(rest, p.folders);
    AllWalkOkAppend(rest, p.folders);
  }

  lemma AllWalkOkPush(a: seq<Folder>, f: Folder)
    ensures AllWalkOk(a + [f]) <==> AllWalkOk(a) && WalkOk(f.node)
  {
    assert forall k :: 0 <= k < |a| ==> (a + [f])[k] == a[k];
    assert (a + [f])[|a|] == f;
  }

  lemma AllWalkOkAppend(a: seq<Folder>, b: seq<Folder>)
    ensures AllWalkOk(a + b) <==> AllWalkOk(a) && AllWalkOk(b)
  {
    assert forall k :: 0 <= k < |a| ==> (a + b)[k] == a[k];
    assert forall k :: 0 <= k < |b| ==> (a + b)[|a| + k] == b[k];
  }

  /** What the walk collects is exactly the set of paths to visible files. */
  lemma WalkedMembers(root: Node, files: seq<seq<Bytes>>)
    requires multiset(files) == multiset(FilesIn(root, []))
    ensures forall c :: c in files <==> VisibleFileAt(root, c)
  {
    forall c ensures c in files <==> VisibleFileAt(root, c) {
      FilesInMembers(root, [], c);
      assert c in files <==> c in multiset(files);
      assert c[0..] == c;
    }
  }

  /** Under distinct names per directory, the walk lists each visible file
      exactly once. */
  lemma WalkExactlyOnce(windows: bool, root: Node, files: seq<seq<Bytes>>)
    requires WellFormed(windows, root)
    requires multiset(files) == multiset(FilesIn(root, []))
    ensures NoDuplicates(files)
  {
    FilesInDistinct(windows, root, []);
    NoDuplicatesPermutation(FilesIn(root, []), files);
  }
}

=== FILE: lib.dfy ===
/** `lib.rs`: hashing a directory into one aggregate digest, and creating or
    validating the hashfile. The hashfile lives in the current directory,
    given here as its own tree `cwd`; when the hashed directory is the
    current one, the same tree is passed for both. */
module Lib {
  import opened Bytes
  import opened Wrappers
  import opened Io
  import opened Blake3
  import opened Paths
  import opened Order
  import opened FsTree
  import opened Types
  import opened Util

  /** ".b3hash_v1" */
  const HASH_RESULTS_FILENAME: Bytes := [0x2E, 0x62, 0x33, 0x68, 0x61, 0x73, 0x68, 0x5F, 0x76, 0x31]

  // ---- hash_directory --------------------------------------------------------

  /** What the aggregate hasher is fed: each record's 32 digest bytes and
      then its path bytes, in record order. */
  function AggregateInput(files: seq<HashedFile>): Bytes
    decreases |files|
  {
    if files == [] then []
    else
      var last := files[|files| - 1];
      AggregateInput(files[..|files| - 1]) + last.hash + last.path
  }

  /** The exact total of the record sizes. */
  function SumSizes(files: seq<HashedFile>): nat
    decreases |files|
  {
    if files == [] then 0 else SumSizes(files[..|files| - 1]) + files[|files| - 1].size
  }

  /** `dir_name`: the last component of `dir_path`, or `dir_path` itself
      when it has none (a root, `.`, or a path ending in `..`). */
  function DirName(windows: bool, dirPath: Bytes): (n: Bytes)
    ensures FileName(windows, dirPath).Some? ==>
      var cs := Components(windows, dirPath); cs != [] && n == cs[|cs| - 1] && IsNormal(n)
    ensures FileName(windows, dirPath).None? ==> n == dirPath
  {
    match FileName(windows, dirPath)
    case Some(name) => name
    case None => dirPath
  }

  /** A directory reached by joining a name is named by that name. */
  lemma DirNameOfJoin(windows: bool, base: Bytes, name: Bytes)
    requires ListedName(windows, name)
    ensures DirName(windows, Join(windows, base, name)) == name
  {
    JoinComponents(windows, base, name);
  }

  /** On Windows a drive root has no file name and names itself: `C:\`
      stays `C:\`, and `C:` joined with `ab` is the drive-relative `C:ab`. */
  lemma DriveRootNamesItself()
    ensures Join(true, [0x43, COLON], [0x61, 0x62]) == [0x43, COLON, 0x61, 0x62]
    ensures FileName(true, [0x43, COLON, BACKSLASH]).None?
    ensures DirName(true, [0x43, COLON, BACKSLASH]) == [0x43, COLON, BACKSLASH]
  {
    var s: Bytes := [0x43, COLON, BACKSLASH];
    assert Join(true, [0x43, COLON], [0x61, 0x62]) == [0x43, COLON] + [0x61, 0x62] by {
      assert HasDrive(true, [0x43, COLON]);
      assert !NeedsSep(true, [0x43, COLON]);
    }
    assert HasDrive(true, s) && s[..2] == [0x43, COLON];
    assert AfterPrefix(true, s) == [BACKSLASH];
    assert [BACKSLASH] == [] + [BACKSLASH] + [];
    PiecesAtSep(true, [], BACKSLASH, []);
    KeepNormalAppend([[]], [[]]);
    KeepNormalSingle([]);
    assert Names(true, [BACKSLASH]) == [];
  }

  /** The loop of `hash_directory`: feeds each record's digest and path to
      one hasher and adds up the sizes in a `u64`. */
  method Aggregate(files: seq<HashedFile>) returns (input: Bytes, total: u64)
    ensures input == AggregateInput(files)
    ensures total == SumSizes(files) % U64_MODULUS
    ensures SumSizes(files) < U64_MODULUS ==> total == SumSizes(files)
  {
    input, total := [], 0;
    var i := 0;
    while i < |files|
      invariant 0 <= i <= |files|
      invariant input == AggregateInput(files[..i])
      invariant total == SumSizes(files[..i]) % U64_MODULUS
    {
      assert files[..i + 1][..i] == files[..i];
      input := input + files[i].hash + files[i].path;
      total := (total + files[i].size) % U64_MODULUS;
      i := i + 1;
    }
    assert files[..i] == files;
  }

  /** `hash_directory`: the records of `hash_files`, one digest over all of
      them, the total size wrapped to 64 bits, and the directory's name. */
  method HashDirectory(t: Target, blake3: Hasher, root: Node, dirPath: Bytes) returns (r: Result<HashedDirectory, IoError>)
    requires WellFormed(t.windows, root)
    ensures r.Success? <==> Hashable(root)
    ensures r.Failure? && !WalkOk(root) ==> WalkErr(root, r.error)
    ensures r.Failure? && WalkOk(root) ==> exists c :: c in FilesIn(root, []) && ReadFile(root, c) == Failure(r.error)
    ensures r.Success? ==> IsSnapshot(t, blake3, root, dirPath, r.value.Deref())
    ensures r.Success? ==> r.value.hash == blake3(AggregateInput(r.value.files))
    ensures r.Success? ==> r.value.size == SumSizes(r.value.files) % U64_MODULUS
    ensures r.Success? && SumSizes(r.value.files) < U64_MODULUS ==> r.value.size == SumSizes(r.value.files)
    ensures r.Success? ==> r.value.dirName == DirName(t.windows, dirPath)
  {
    var files :- HashFiles(t, blake3, root, dirPath);
    var input, total := Aggregate(files);
    return Success(HashedDirectory(DirName(t.windows, dirPath), files, blake3(input), total));
  }

  /** Digests and paths are fed without separators, so one record can feed
      the same bytes as two: the aggregate input does not determine the
      records. */
  lemma AggregateInputAmbiguous(d1: Digest, d2: Digest)
    ensures var one := [HashedFile(d1, [0x61] + d2 + [0x62], 0)];
      var two := [HashedFile(d1, [0x61], 0), HashedFile(d2, [0x62], 0)];
      one != two && AggregateInput(one) == AggregateInput(two)
  {
    var two := [HashedFile(d1, [0x61], 0), HashedFile(d2, [0x62], 0)];
    assert two[..1] == [two[0]];
  }

  // ---- the hashfile ----------------------------------------------------------

  /** The hashfile as the directory lists it after a write. */
  function HashfileEntry(doc: Bytes): Entry {
    Entry(HASH_RESULTS_FILENAME, None, File(doc, None))
  }

  /** Whether `std::fs::write` of the hashfile can go through: the current
      directory is a directory, and an existing hashfile entry is readable
      and not a directory. */
  predicate CanWrite(cwd: Node) {
    cwd.Dir? &&
    match FindEntry(cwd.entries, HASH_RESULTS_FILENAME, 0)
    case None => true
    case Some(k) => cwd.entries[k].statErr.None? && !cwd.entries[k].node.Dir?
  }

  /** `std::fs::write` of `./.b3hash_v1`: replaces the entry of that name, or
      adds one at the end of the listing. */
  function WriteHashfile(cwd: Node, doc: Bytes): (r: Result<Node, IoError>)
    ensures r.Success? <==> CanWrite(cwd)
    ensures r.Success? ==> r.value.Dir? && r.value.listErr == cwd.listErr
  {
    if !cwd.Dir? then Failure(IoError(NotADirectory, []))
    else
      var es := cwd.entries;
      match FindEntry(es, HASH_RESULTS_FILENAME, 0)
      case None => Success(Dir(es + [HashfileEntry(doc)], cwd.listErr))
      case Some(k) =>
        if es[k].statErr.Some? then Failure(es[k].statErr.value)
        else if es[k].node.Dir? then Failure(IoError(IsADirectory, []))
        else Success(Dir(es[k := HashfileEntry(doc)], cwd.listErr))
  }

  /** `std::fs::read` of `./.b3hash_v1`: the contents of the current
      directory's readable hashfile entry; NotFound when there is none. */
  function ReadHashfile(cwd: Node): (r: Result<Bytes, IoError>)
    ensures cwd.Dir? && FindEntry(cwd.entries, HASH_RESULTS_FILENAME, 0).None? ==> r == Failure(IoError(NotFound, []))
    ensures r.Success? ==>
      && cwd.Dir? && FindEntry(cwd.entries, HASH_RESULTS_FILENAME, 0).Some?
      && cwd.entries[FindEntry(cwd.entries, HASH_RESULTS_FILENAME, 0).value]
         == Entry(HASH_RESULTS_FILENAME, None, File(r.value, None))
  {
    ReadFile(cwd, [HASH_RESULTS_FILENAME])
  }

  /** What was written is what is read back. */
  lemma WriteThenRead(cwd: Node, doc: Bytes)
    requires WriteHashfile(cwd, doc).Success?
    ensures ReadHashfile(WriteHashfile(cwd, doc).value) == Success(doc)
  {
    var es := cwd.entries;
    var es' := WriteHashfile(cwd, doc).value.entries;
    var found := FindEntry(es, HASH_RESULTS_FILENAME, 0);
    if found.None? {
      assert es'[|es|] == HashfileEntry(doc);
      assert FindEntry(es', HASH_RESULTS_FILENAME, 0) == Some(|es|);
    } else {
      var k := found.value;
      assert es'[k] == HashfileEntry(doc);
      assert forall j :: 0 <= j < k ==> es'[j] == es[j];
      assert FindEntry(es', HASH_RESULTS_FILENAME, 0) == found;
    }
  }

  /** `b` lists what `a` lists, except that hidden entries may have been
      rewritten in place (keeping their names) or added at the end; the
      rewritten and added ones are readable. */
  predicate SameButHidden(a: Node, b: Node) {
    a.Dir? && b.Dir? && a.listErr == b.listErr && |a.entries| <= |b.entries| &&
    forall j :: 0 <= j < |b.entries| ==>
      (j < |a.entries| && b.entries[j] == a.entries[j]) ||
      (b.entries[j].Entry? && Hidden(b.entries[j].name) && b.entries[j].statErr.None? &&
       (j < |a.entries| ==> a.entries[j].Entry? && a.entries[j].name == b.entries[j].name))
  }

  lemma WriteIsSameButHidden(cwd: Node, doc: Bytes)
    requires WriteHashfile(cwd, doc).Success?
    ensures SameButHidden(cwd, WriteHashfile(cwd, doc).value)
  {
  }

  lemma {:induction false} FilesFromSameButHidden(a: Node, b: Node, i: nat, p: seq<Bytes>)
    requires SameButHidden(a, b) && i <= |b.entries|
    ensures FilesFrom(b, i, p) == (if i <= |a.entries| then FilesFrom(a, i, p) else [])
    decreases |b.entries| - i
  {
    if i < |b.entries| {
      FilesFromSameButHidden(a, b, i + 1, p);
      assert EntryFiles(b.entries[i], p) == (if i < |a.entries| then EntryFiles(a.entries[i], p) else []);
    }
  }

  lemma FindEntrySameButHidden(a: Node, b: Node, n: Bytes)
    requires SameButHidden(a, b) && !Hidden(n)
    ensures FindEntry(b.entries, n, 0) == FindEntry(a.entries, n, 0)
  {
    var fa, fb := FindEntry(a.entries, n, 0), FindEntry(b.entries, n, 0);
    if fb.Some? {
      assert a.entries[fb.value].Entry? && a.entries[fb.value].name == n;
    }
    if fa.Some? {
      assert b.entries[fa.value].Entry? && b.entries[fa.value].name == n;
    }
  }

  lemma WalkOkSameButHidden(a: Node, b: Node)
    requires SameButHidden(a, b)
    ensures WalkOk(b) <==> WalkOk(a)
  {
    assert ListOk(b) <==> ListOk(a) by {
      assert forall j :: 0 <= j < |b.entries| ==> EntryOk(b.entries[j]) || (j < |a.entries| && !EntryOk(a.entries[j]));
    }
  }

  lemma LookupSameButHidden(a: Node, b: Node, names: seq<Bytes>)
    requires SameButHidden(a, b) && names != [] && !Hidden(names[0])
    ensures Lookup(b, names) == Lookup(a, names)
  {
    FindEntrySameButHidden(a, b, names[0]);
  }

  lemma WellFormedAfterWrite(windows: bool, cwd: Node, doc: Bytes)
    requires WriteHashfile(cwd, doc).Success? && WellFormed(windows, cwd)
    ensures WellFormed(windows, WriteHashfile(cwd, doc).value)
  {
    assert ListedName(windows, HASH_RESULTS_FILENAME);
  }

  /** Writing the hashfile leaves what the walk sees, whether it succeeds,
      and every path below a visible name exactly as they were. */
  lemma HashfileInvisible(windows: bool, cwd: Node, doc: Bytes)
    requires WriteHashfile(cwd, doc).Success?
    ensures var cwd' := WriteHashfile(cwd, doc).value;
      && Hidden(HASH_RESULTS_FILENAME)
      && FilesIn(cwd', []) == FilesIn(cwd, [])
      && (WalkOk(cwd') <==> WalkOk(cwd))
      && (WellFormed(windows, cwd) ==> WellFormed(windows, cwd'))
      && forall names :: names != [] && !Hidden(names[0]) ==> Lookup(cwd', names) == Lookup(cwd, names)
  {
    var cwd' := WriteHashfile(cwd, doc).value;
    WriteIsSameButHidden(cwd, doc);
    FilesFromSameButHidden(cwd, cwd', 0, []);
    WalkOkSameButHidden(cwd, cwd');
    forall names | names != [] && !Hidden(names[0]) ensures Lookup(cwd', names) == Lookup(cwd, names) {
      LookupSameButHidden(cwd, cwd', names);
    }
    if WellFormed(windows, cwd) {
      WellFormedAfterWrite(windows, cwd, doc);
    }
  }

  // ---- create_hashfile and validate_hashfile ---------------------------------

  /** `create_hashfile`: writes the document of `hash_files`' records to
      `./.b3hash_v1` and returns the current directory as it is afterwards.
      `writeErr` is a failure of the write the tree does not show (a full
      disk, a denied permission). */
  method CreateHashfile(t: Target, blake3: Hasher, root: Node, dirPath: Bytes, cwd: Node, writeErr: Option<IoError>)
    returns (r: Result<Node, IoError>)
    requires WellFormed(t.windows, root)
    ensures r.Success? <==> Hashable(root) && writeErr.None? && CanWrite(cwd)
    ensures r.Failure? && !WalkOk(root) ==> WalkErr(root, r.error)
    ensures r.Failure? && WalkOk(root) && !Hashable(root) ==>
      exists c :: c in FilesIn(root, []) && ReadFile(root, c) == Failure(r.error)
    ensures Hashable(root) && writeErr.Some? ==> r == Failure(writeErr.value)
    ensures Hashable(root) && writeErr.None? ==>
      exists records :: IsSnapshot(t, blake3, root, dirPath, records) && r == WriteHashfile(cwd, Serialize(records))
    ensures r.Success? ==>
      exists records :: IsSnapshot(t, blake3, root, dirPath, records) && r == WriteHashfile(cwd, Serialize(records))
  {
    var records :- HashFiles(t, blake3, root, dirPath);
    var data := Serialize(records);
    if writeErr.Some? {
      return Failure(writeErr.value);
    }
    r := WriteHashfile(cwd, data);
  }

  /** `validate_hashfile`: reads `./.b3hash_v1` and validates the directory
      against it; a missing or unreadable hashfile is an error. */
  function ValidateHashfile(t: Target, blake3: Hasher, root: Node, dirPath: Bytes, cwd: Node): (r: Result<Option<seq<Bytes>>, IoError>)
    ensures ReadHashfile(cwd).Failure? ==> r == Failure(ReadHashfile(cwd).error)
    ensures cwd.Dir? && FindEntry(cwd.entries, HASH_RESULTS_FILENAME, 0).None? ==> r == Failure(IoError(NotFound, []))
    ensures ReadHashfile(cwd).Success? ==> r == ValidateData(t, blake3, root, dirPath, ReadHashfile(cwd).value)
  {
    var data :- ReadHashfile(cwd);
    ValidateData(t, blake3, root, dirPath, data)
  }

  /** The records stay the records of the tree after the hashfile is written
      into it: the hashfile is hidden, so it is never walked. */
  lemma SnapshotSurvivesWrite(t: Target, blake3: Hasher, root: Node, dirPath: Bytes, doc: Bytes, records: seq<HashedFile>)
    requires WellFormed(t.windows, root)
    requires IsSnapshot(t, blake3, root, dirPath, records)
    requires WriteHashfile(root, doc).Success?
    ensures IsSnapshot(t, blake3, WriteHashfile(root, doc).value, dirPath, records)
  {
    var root' := WriteHashfile(root, doc).value;
    HashfileInvisible(t.windows, root, doc);
    SortedWalk(t.windows, root);
    var chains := Sort(ChainLt, FilesIn(root, []));
    forall i | 0 <= i < |chains|
      ensures HashRecord(t, blake3, root', dirPath, chains[i]) == HashRecord(t, blake3, root, dirPath, chains[i])
    {
      VisibleFileAtNames(t.windows, root, chains[i]);
      assert Lookup(root', chains[i]) == Lookup(root, chains[i]);
    }
  }

  /** Creating the hashfile and then validating against it reports no
      failures, as long as the walk put a separator after `dir_path` and no
      path holds a line feed or ends in a carriage return. The current
      directory `cwd` is a tree of its own here, apart from the hashed one;
      the case where it is the hashed directory itself is
      `PersistInPlaceThenValidate`, and a current directory strictly inside
      the hashed tree is not covered. */
  lemma PersistThenValidate(t: Target, blake3: Hasher, root: Node, dirPath: Bytes, cwd: Node, records: seq<HashedFile>)
    requires NeedsSep(t.windows, dirPath)
    requires WellFormed(t.windows, root)
    requires IsSnapshot(t, blake3, root, dirPath, records)
    requires PlainPaths(records)
    requires WriteHashfile(cwd, Serialize(records)).Success?
    ensures ValidateHashfile(t, blake3, root, dirPath, WriteHashfile(cwd, Serialize(records)).value) == Success(None)
  {
    WriteThenRead(cwd, Serialize(records));
    ValidateSerialized(t, blake3, root, dirPath, Sort(ChainLt, FilesIn(root, [])), records);
  }

  /** Below a `dir_path` the walk put no separator after, creating the hashfile
      for a directory with one file at its top and validating against it
      reports that file as missing, though nothing changed (`ab` below `d/`
      reports `d/b`). */
  lemma PersistAsWrittenReports(t: Target, blake3: Hasher, root: Node, dirPath: Bytes, n: Bytes, x: Bytes, cwd: Node, records: seq<HashedFile>)
    requires !NeedsSep(t.windows, dirPath)
    requires |n| > 0 && !Hidden(n) && PlainLine(n) && IsNormal(n[1..])
    requires root == Dir([Entry(n, None, File(x, None))], None)
    requires IsSnapshot(t, blake3, root, dirPath, records)
    requires WriteHashfile(cwd, Serialize(records)).Success?
    ensures ValidateHashfile(t, blake3, root, dirPath, WriteHashfile(cwd, Serialize(records)).value)
      == Success(Some([Join(t.windows, OiVei(t.windows, dirPath), n[1..])]))
  {
    WriteThenRead(cwd, Serialize(records));
    AsWrittenDocumentReports(t, blake3, root, dirPath, n, x, records);
  }

  /** The same when the hashed directory is the current one, so that the
      hashfile lands inside the tree that is validated. */
  lemma PersistInPlaceThenValidate(t: Target, blake3: Hasher, root: Node, dirPath: Bytes, records: seq<HashedFile>)
    requires NeedsSep(t.windows, dirPath)
    requires WellFormed(t.windows, root)
    requires IsSnapshot(t, blake3, root, dirPath, records)
    requires PlainPaths(records)
    requires WriteHashfile(root, Serialize(records)).Success?
    ensures var root' := WriteHashfile(root, Serialize(records)).value;
      ValidateHashfile(t, blake3, root', dirPath, root') == Success(None)
  {
    var root' := WriteHashfile(root, Serialize(records)).value;
    SnapshotSurvivesWrite(t, blake3, root, dirPath, Serialize(records), records);
    HashfileInvisible(t.windows, root, Serialize(records));
    PersistThenValidate(t, blake3, root', dirPath, root, records);
  }
}

=== FILE: order.dfy ===
/** Strict total orders, the lexicographic order Rust derives for slices and
    path components, and sorting. `sort_unstable` is modelled by insertion
    sort: under a total order there is exactly one sorted permutation of a
    sequence (`SortedUnique`), so every correct sort returns the same thing. */
module Order {

  ghost predicate Irreflexive<T(!new)>(less: (T, T) -> bool) {
    forall x :: !less(x, x)
  }

  ghost predicate Transitive<T(!new)>(less: (T, T) -> bool) {
    forall x, y, z :: less(x, y) && less(y, z) ==> less(x, z)
  }

  ghost predicate Connected<T(!new)>(less: (T, T) -> bool) {
    forall x, y :: x != y ==> less(x, y) || less(y, x)
  }

  ghost predicate StrictTotalOrder<T(!new)>(less: (T, T) -> bool) {
    Irreflexive(less) && Transitive(less) && Connected(less)
  }

  /** Rust's `Ord` for slices: the first differing element decides, and a
      proper prefix comes first. */
  predicate LexLess<T(==)>(less: (T, T) -> bool, a: seq<T>, b: seq<T>)
    decreases |a|
  {
    if a == [] then b != []
    else b != [] && (less(a[0], b[0]) || (a[0] == b[0] && LexLess(less, a[1..], b[1..])))
  }

  lemma {:induction false} LexIrreflexive<T(!new)>(less: (T, T) -> bool, a: seq<T>)
    requires Irreflexive(less)
    ensures !LexLess(less, a, a)
  {
    if a != [] {
      LexIrreflexive(less, a[1..]);
    }
  }

  lemma {:induction false} LexTransitive<T(!new)>(less: (T, T) -> bool, a: seq<T>, b: seq<T>, c: seq<T>)
    requires Transitive(less)
    requires LexLess(less, a, b) && LexLess(less, b, c)
    ensures LexLess(less, a, c)
  {
    if a != [] && !less(a[0], b[0]) && !less(b[0], c[0]) {
      LexTransitive(less, a[1..], b[1..], c[1..]);
    }
  }

  lemma {:induction false} LexConnected<T(!new)>(less: (T, T) -> bool, a: seq<T>, b: seq<T>)
    requires Connected(less)
    requires a != b
    ensures LexLess(less, a, b) || LexLess(less, b, a)
  {
    if a != [] && b != [] && a[0] == b[0] {
      assert a == [a[0]] + a[1..] && b == [b[0]] + b[1..];
      LexConnected(less, a[1..], b[1..]);
    }
  }

  lemma LexStrictTotalOrder<T(!new)>(less: (T, T) -> bool)
    requires StrictTotalOrder(less)
    ensures forall a: seq<T> :: !LexLess(less, a, a)
    ensures forall a: seq<T>, b: seq<T>, c: seq<T> ::
              LexLess(less, a, b) && LexLess(less, b, c) ==> LexLess(less, a, c)
    ensures forall a: seq<T>, b: seq<T> :: a != b ==> LexLess(less, a, b) || LexLess(less, b, a)
  {
    forall a: seq<T> ensures !LexLess(less, a, a) {
      LexIrreflexive(less, a);
    }
    forall a: seq<T>, b: seq<T>, c: seq<T> | LexLess(less, a, b) && LexLess(less, b, c)
      ensures LexLess(less, a, c)
    {
      LexTransitive(less, a, b, c);
    }
    forall a: seq<T>, b: seq<T> | a != b ensures LexLess(less, a, b) || LexLess(less, b, a) {
      LexConnected(less, a, b);
    }
  }

  /** A shared prefix does not change the comparison. */
  lemma {:induction false} LexCommonPrefix<T(!new)>(less: (T, T) -> bool, p: seq<T>, a: seq<T>, b: seq<T>)
    requires Irreflexive(less)
    ensures LexLess(less, p + a, p + b) == LexLess(less, a, b)
  {
    if p != [] {
      assert (p + a)[1..] == p[1..] + a && (p + b)[1..] == p[1..] + b;
      assert (p + a)[0] == p[0] == (p + b)[0];
      assert !less(p[0], p[0]);
      assert LexLess(less, p + a, p + b) == LexLess(less, (p + a)[1..], (p + b)[1..]);
      LexCommonPrefix(less, p[1..], a, b);
    } else {
      assert p + a == a && p + b == b;
    }
  }

  /** Non-decreasing: no later element is below an earlier one. */
  ghost predicate Sorted<T>(less: (T, T) -> bool, s: seq<T>) {
    forall i, j :: 0 <= i < j < |s| ==> !less(s[j], s[i])
  }

  ghost predicate StrictlySorted<T>(less: (T, T) -> bool, s: seq<T>) {
    forall i, j :: 0 <= i < j < |s| ==> less(s[i], s[j])
  }

  predicate NoDuplicates<T(==)>(s: seq<T>) {
    forall i, j :: 0 <= i < j < |s| ==> s[i] != s[j]
  }

  function Insert<T(!new)>(less: (T, T) -> bool, x: T, s: seq<T>): (r: seq<T>)
    ensures multiset(r) == multiset(s) + multiset{x}
  {
    if s == [] then [x]
    else if less(s[0], x) then
      assert s == [s[0]] + s[1..];
      [s[0]] + Insert(less, x, s[1..])
    else
      [x] + s
  }

  lemma {:induction false} InsertSorted<T(!new)>(less: (T, T) -> bool, x: T, s: seq<T>)
    requires StrictTotalOrder(less) && Sorted(less, s)
    ensures Sorted(less, Insert(less, x, s))
  {
    if s == [] {
    } else if less(s[0], x) {
      var rest := Insert(less, x, s[1..]);
      InsertSorted(less, x, s[1..]);
      forall j | 0 <= j < |rest| ensures !less(rest[j], s[0]) {
        assert rest[j] in multiset(rest);
        if rest[j] != x {
          assert rest[j] in multiset(s[1..]);
          var k :| 0 <= k < |s[1..]| && s[1..][k] == rest[j];
          assert s[k + 1] == rest[j];
        }
      }
      assert Insert(less, x, s) == [s[0]] + rest;
    } else {
      forall j | 0 <= j < |s| ensures !less(s[j], x) {
        assert !less(s[j], s[0]);
      }
      assert Insert(less, x, s) == [x] + s;
    }
  }

  /** The model of `sort_unstable`. */
  function Sort<T(!new)>(less: (T, T) -> bool, s: seq<T>): (r: seq<T>)
    ensures multiset(r) == multiset(s)
    ensures |r| == |s|
    ensures StrictTotalOrder(less) ==> Sorted(less, r)
  {
    if s == [] then []
    else
      var rest := Sort(less, s[1..]);
      assert s == [s[0]] + s[1..];
      assert StrictTotalOrder(less) ==> Sorted(less, Insert(less, s[0], rest)) by {
        if StrictTotalOrder(less) {
          InsertSorted(less, s[0], rest);
        }
      }
      assert |multiset(Insert(less, s[0], rest))| == |s|;
      Insert(less, s[0], rest)
  }

  /** Two elements already in order stay in order. */
  lemma SortTwo<T(!new)>(less: (T, T) -> bool, a: T, b: T)
    requires !less(b, a)
    ensures Sort(less, [a, b]) == [a, b]
  {
    assert [a, b][1..] == [b];
    assert [b][1..] == [];
    assert Sort(less, [b]) == [b];
  }

  /** The first elements of two sorted arrangements of one multiset agree. */
  lemma SortedHeadsAgree<T(!new)>(less: (T, T) -> bool, a: seq<T>, b: seq<T>)
    requires StrictTotalOrder(less)
    requires Sorted(less, a) && Sorted(less, b)
    requires multiset(a) == multiset(b)
    requires a != [] && b != []
    ensures a[0] == b[0]
  {
    assert a[0] in multiset(b);
    var k :| 0 <= k < |b| && b[k] == a[0];
    assert b[0] in multiset(a);
    var m :| 0 <= m < |a| && a[m] == b[0];
    assert !less(a[m], a[0]);
    assert !less(b[k], b[0]);
  }

  lemma TailMultiset<T>(a: seq<T>)
    requires a != []
    ensures multiset(a[1..]) == multiset(a) - multiset{a[0]}
  {
    assert a == [a[0]] + a[1..];
  }

  lemma SortedTail<T>(less: (T, T) -> bool, a: seq<T>)
    requires a != [] && Sorted(less, a)
    ensures Sorted(less, a[1..])
  {
    forall i, j | 0 <= i < j < |a| - 1 ensures !less(a[1..][j], a[1..][i]) {
      assert a[1..][j] == a[j + 1] && a[1..][i] == a[i + 1];
    }
  }

  /** Under a total order a sequence has one sorted arrangement. */
  lemma {:induction false} SortedUnique<T(!new)>(less: (T, T) -> bool, a: seq<T>, b: seq<T>)
    requires StrictTotalOrder(less)
    requires Sorted(less, a) && Sorted(less, b)
    requires multiset(a) == multiset(b)
    ensures a == b
  {
    assert |a| == |multiset(a)| == |multiset(b)| == |b|;
    if a != [] {
      SortedHeadsAgree(less, a, b);
      TailMultiset(a);
      TailMultiset(b);
      SortedTail(less, a);
      SortedTail(less, b);
      SortedUnique(less, a[1..], b[1..]);
      assert a == [a[0]] + a[1..] && b == [b[0]] + b[1..];
    }
  }

  /** Sorting a permutation gives the same result. */
  lemma SortIsCanonical<T(!new)>(less: (T, T) -> bool, s: seq<T>, t: seq<T>)
    requires StrictTotalOrder(less)
    requires multiset(s) == multiset(t)
    ensures Sort(less, s) == Sort(less, t)
  {
    SortedUnique(less, Sort(less, s), Sort(less, t));
  }

  /** Without duplicates, a sorted sequence is strictly increasing. */
  lemma SortedDistinctIsStrict<T(!new)>(less: (T, T) -> bool, s: seq<T>)
    requires StrictTotalOrder(less)
    requires Sorted(less, s) && NoDuplicates(s)
    ensures StrictlySorted(less, s)
  {
    forall i, j | 0 <= i < j < |s| ensures less(s[i], s[j]) {
      assert s[i] != s[j] && !less(s[j], s[i]);
    }
  }

  lemma NoDuplicatesConcat<T>(a: seq<T>, b: seq<T>)
    requires NoDuplicates(a) && NoDuplicates(b)
    requires forall x :: x in a ==> x !in b
    ensures NoDuplicates(a + b)
  {
    forall i, j | 0 <= i < j < |a + b| ensures (a + b)[i] != (a + b)[j] {
      if i < |a| && j >= |a| {
        assert (a + b)[i] in a && (a + b)[j] in b;
      }
    }
  }

  lemma {:induction false} NoDuplicatesPermutation<T(!new)>(s: seq<T>, t: seq<T>)
    requires multiset(s) == multiset(t)
    requires NoDuplicates(s)
    ensures NoDuplicates(t)
  {
    forall i, j | 0 <= i < j < |t| ensures t[i] != t[j] {
      if t[i] == t[j] {
        assert multiset(t)[t[i]] >= 2 by {
          assert t == t[..i] + [t[i]] + t[i+1..j] + [t[j]] + t[j+1..];
        }
        MultiplicityOfDistinct(s, t[i]);
        assert false;
      }
    }
  }

  lemma {:induction false} MultiplicityOfDistinct<T(!new)>(s: seq<T>, x: T)
    requires NoDuplicates(s)
    ensures multiset(s)[x] <= 1
  {
    if s != [] {
      assert s == [s[0]] + s[1..];
      MultiplicityOfDistinct(s[1..], x);
      if s[0] == x {
        assert x !in s[1..];
      }
    }
  }
}

=== FILE: paths.dfy ===
/** Path strings as `camino`/`std::path` build and take them apart, limited
    to what the core uses: appending a name to a base (`Utf8Path::join` of a
    relative name), splitting into components, the component-wise order
    `Utf8PathBuf` sorts by, and `file_name`. Of the Windows prefixes only a
    drive such as `C:` is modelled; UNC and verbatim prefixes, `..`
    resolution and joins with absolute paths are not. */
module Paths {
  import opened Bytes
  import opened Wrappers
  import opened Order

  const SLASH: byte := 0x2F
  const BACKSLASH: byte := 0x5C
  const DOT: byte := 0x2E
  const COLON: byte := 0x3A

  /** Separator bytes: '/' everywhere, and '\' as well on Windows. */
  predicate IsSep(windows: bool, b: byte) {
    b == SLASH || (windows && b == BACKSLASH)
  }

  /** `std::path::MAIN_SEPARATOR`, the one `join` inserts. */
  function MainSep(windows: bool): byte {
    if windows then BACKSLASH else SLASH
  }

  predicate NoSep(windows: bool, s: Bytes) {
    forall i :: 0 <= i < |s| ==> !IsSep(windows, s[i])
  }

  /** A name a directory listing can return: non-empty, without separators,
      and on Windows without ':', which Windows file names cannot hold. */
  predicate ValidName(windows: bool, n: Bytes) {
    |n| > 0 && NoSep(windows, n) && (windows ==> COLON !in n)
  }

  predicate AsciiLetter(b: byte) {
    (0x41 <= b <= 0x5A) || (0x61 <= b <= 0x7A)
  }

  /** On Windows, the path starts with a drive prefix: a letter and ':'. */
  predicate HasDrive(windows: bool, s: Bytes) {
    windows && |s| >= 2 && AsciiLetter(s[0]) && s[1] == COLON
  }

  /** The path after its drive prefix, if it has one. */
  function AfterPrefix(windows: bool, s: Bytes): (r: Bytes)
    ensures HasDrive(windows, s) ==> s == s[..2] + r
    ensures !HasDrive(windows, s) ==> r == s
  {
    if HasDrive(windows, s) then s[2..] else s
  }

  /** A component that `Path::components` keeps as a normal name: not empty
      (from doubled or trailing separators) and not `.`. */
  predicate IsNormal(p: Bytes) {
    p != [] && p != [DOT]
  }

  predicate ValidChain(windows: bool, chain: seq<Bytes>) {
    forall i :: 0 <= i < |chain| ==> ValidName(windows, chain[i]) && IsNormal(chain[i])
  }

  /** `PathBuf::push` inserts a separator unless the base is empty, already
      ends with one, or is a bare Windows drive such as `C:`, which stays
      drive-relative. */
  predicate NeedsSep(windows: bool, base: Bytes) {
    |base| > 0 && !IsSep(windows, base[|base| - 1]) && !(HasDrive(windows, base) && |base| == 2)
  }

  /** `Utf8Path::join` of a relative path. */
  function Join(windows: bool, base: Bytes, rel: Bytes): Bytes {
    if NeedsSep(windows, base) then base + [MainSep(windows)] + rel else base + rel
  }

  /** The path `read_dir` yields for the entry reached from `root` through
      `chain`: each name joined onto its parent's path. */
  function FullPath(windows: bool, root: Bytes, chain: seq<Bytes>): Bytes
    decreases |chain|
  {
    if chain == [] then root
    else Join(windows, FullPath(windows, root, chain[..|chain| - 1]), chain[|chain| - 1])
  }

  /** Names with one `sep` between consecutive ones. */
  function JoinNames(sep: byte, chain: seq<Bytes>): Bytes
    decreases |chain|
  {
    if chain == [] then []
    else if |chain| == 1 then chain[0]
    else JoinNames(sep, chain[..|chain| - 1]) + [sep] + chain[|chain| - 1]
  }

  /** The runs between separators: `a//b/` gives `a`, ``, `b`, ``. */
  function Pieces(windows: bool, s: Bytes): (r: seq<Bytes>)
    ensures |r| > 0
    decreases |s|
  {
    if s == [] then [[]]
    else if IsSep(windows, s[0]) then [[]] + Pieces(windows, s[1..])
    else
      var rest := Pieces(windows, s[1..]);
      [[s[0]] + rest[0]] + rest[1..]
  }

  function KeepNormal(ps: seq<Bytes>): (r: seq<Bytes>)
    ensures forall i :: 0 <= i < |r| ==> IsNormal(r[i])
    decreases |ps|
  {
    if ps == [] then []
    else KeepNormal(ps[..|ps| - 1]) + (if IsNormal(ps[|ps| - 1]) then [ps[|ps| - 1]] else [])
  }

  /** The normal names of a path without prefix, in order. Root markers and
      `.` are dropped; `..` is kept as a name. */
  function Names(windows: bool, s: Bytes): seq<Bytes> {
    KeepNormal(Pieces(windows, s))
  }

  /** The components of a path, in order: the drive prefix, if any, then the
      normal names. */
  function Components(windows: bool, s: Bytes): seq<Bytes> {
    (if HasDrive(windows, s) then [s[..2]] else []) + Names(windows, AfterPrefix(windows, s))
  }

  /** `Utf8Path::file_name`: the last component when it is a normal name, so
      nothing when there is no component, when the last is `..`, or when the
      only one is a drive prefix. */
  function FileName(windows: bool, s: Bytes): (r: Option<Bytes>)
    ensures r.Some? ==> IsNormal(r.value) && r.value != [DOT, DOT]
    ensures r.Some? ==> r.value in Components(windows, s)
    ensures r.None? <==> var cs := Components(windows, s);
      cs == [] || cs[|cs| - 1] == [DOT, DOT] || (HasDrive(windows, s) && |cs| == 1)
    ensures r.Some? ==> var cs := Components(windows, s); r.value == cs[|cs| - 1]
  {
    var cs := Components(windows, s);
    var ns := Names(windows, AfterPrefix(windows, s));
    if ns == [] || ns[|ns| - 1] == [DOT, DOT] then None else Some(ns[|ns| - 1])
  }

  // ---- orders --------------------------------------------------------------

  predicate ByteLt(x: byte, y: byte) {
    x < y
  }

  /** `Ord for str`: byte-lexicographic. */
  predicate NameLt(a: Bytes, b: Bytes) {
    LexLess(ByteLt, a, b)
  }

  /** Lexicographic over names, each compared byte-wise. */
  predicate ChainLt(a: seq<Bytes>, b: seq<Bytes>) {
    LexLess(NameLt, a, b)
  }

  /** `Ord for Utf8Path`: the component sequences are compared, not the bytes. */
  predicate PathLt(windows: bool, a: Bytes, b: Bytes) {
    ChainLt(Components(windows, a), Components(windows, b))
  }

  lemma NameLtIsStrictTotalOrder()
    ensures StrictTotalOrder(NameLt)
  {
    assert StrictTotalOrder(ByteLt);
    LexStrictTotalOrder(ByteLt);
  }

  lemma ChainLtIsStrictTotalOrder()
    ensures StrictTotalOrder(ChainLt)
  {
    NameLtIsStrictTotalOrder();
    LexStrictTotalOrder(NameLt);
  }

  // ---- component lemmas ----------------------------------------------------

  lemma {:induction false} PiecesOfName(windows: bool, n: Bytes)
    requires NoSep(windows, n)
    ensures Pieces(windows, n) == [n]
  {
    if n != [] {
      PiecesOfName(windows, n[1..]);
      assert [n[0]] + n[1..] == n;
    }
  }

  lemma PiecesCons(windows: bool, x: byte, t: Bytes)
    ensures IsSep(windows, x) ==> Pieces(windows, [x] + t) == [[]] + Pieces(windows, t)
    ensures !IsSep(windows, x) ==>
      Pieces(windows, [x] + t) == [[x] + Pieces(windows, t)[0]] + Pieces(windows, t)[1..]
  {
    assert ([x] + t)[1..] == t;
  }

  lemma ConsDistributes(x: byte, p: seq<Bytes>, q: seq<Bytes>)
    requires |p| > 0
    ensures [[x] + (p + q)[0]] + (p + q)[1..] == ([[x] + p[0]] + p[1..]) + q
  {
    assert (p + q)[0] == p[0];
    assert (p + q)[1..] == p[1..] + q;
  }

  lemma PiecesConsStep(windows: bool, x: byte, a: Bytes, t: Bytes, pb: seq<Bytes>)
    requires Pieces(windows, t) == Pieces(windows, a) + pb
    ensures Pieces(windows, [x] + t) == Pieces(windows, [x] + a) + pb
  {
    PiecesCons(windows, x, t);
    PiecesCons(windows, x, a);
    if !IsSep(windows, x) {
      ConsDistributes(x, Pieces(windows, a), pb);
    }
  }

  /** Splitting at a separator splits the pieces. */
  lemma {:induction false} PiecesAtSep(windows: bool, a: Bytes, c: byte, b: Bytes)
    requires IsSep(windows, c)
    ensures Pieces(windows, a + [c] + b) == Pieces(windows, a) + Pieces(windows, b)
    decreases |a|
  {
    if a == [] {
      assert a + [c] + b == [c] + b;
      PiecesCons(windows, c, b);
    } else {
      var t := a[1..] + [c] + b;
      assert a + [c] + b == [a[0]] + t;
      assert a == [a[0]] + a[1..];
      PiecesAtSep(windows, a[1..], c, b);
      PiecesConsStep(windows, a[0], a[1..], t, Pieces(windows, b));
    }
  }

  lemma {:induction false} KeepNormalAppend(x: seq<Bytes>, y: seq<Bytes>)
    ensures KeepNormal(x + y) == KeepNormal(x) + KeepNormal(y)
    decreases |y|
  {
    if y == [] {
      assert x + y == x;
    } else {
      assert (x + y)[..|x + y| - 1] == x + y[..|y| - 1];
      KeepNormalAppend(x, y[..|y| - 1]);
    }
  }

  lemma KeepNormalSingle(n: Bytes)
    ensures KeepNormal([n]) == if IsNormal(n) then [n] else []
  {
    assert [n][..0] == [];
  }

  lemma NamesAppendName(windows: bool, x: Bytes, c: byte, n: Bytes)
    requires IsSep(windows, c)
    requires ValidName(windows, n) && IsNormal(n)
    ensures Names(windows, x + [c] + n) == Names(windows, x) + [n]
  {
    PiecesOfName(windows, n);
    PiecesAtSep(windows, x, c, n);
    KeepNormalAppend(Pieces(windows, x), [n]);
    KeepNormalSingle(n);
  }

  lemma NamesTrailingSep(windows: bool, x: Bytes, c: byte)
    requires IsSep(windows, c)
    ensures Names(windows, x + [c]) == Names(windows, x)
  {
    PiecesAtSep(windows, x, c, []);
    assert x + [c] + [] == x + [c];
    KeepNormalAppend(Pieces(windows, x), [[]]);
    KeepNormalSingle([]);
  }

  /** A name holds no drive prefix. */
  lemma NameHasNoDrive(windows: bool, n: Bytes)
    requires ValidName(windows, n)
    ensures !HasDrive(windows, n)
  {
    if windows && |n| >= 2 {
      assert n[1] in n;
    }
  }

  /** Appending after a separator keeps the drive prefix, or the lack of one. */
  lemma DriveKeptAfterSep(windows: bool, x: Bytes, c: byte, y: Bytes)
    requires IsSep(windows, c)
    ensures HasDrive(windows, x + [c] + y) <==> HasDrive(windows, x)
    ensures HasDrive(windows, x) ==>
      (x + [c] + y)[..2] == x[..2] && AfterPrefix(windows, x + [c] + y) == AfterPrefix(windows, x) + [c] + y
  {
    var s := x + [c] + y;
    if |x| >= 2 {
      assert s[0] == x[0] && s[1] == x[1];
    } else if |x| == 1 {
      assert s[1] == c;
    } else {
      assert s[0] == c;
    }
    if HasDrive(windows, x) {
      assert s[2..] == x[2..] + [c] + y;
    }
  }

  /** A separator followed by a normal name adds that name as the last component. */
  lemma ComponentsAppendName(windows: bool, x: Bytes, c: byte, n: Bytes)
    requires IsSep(windows, c)
    requires ValidName(windows, n) && IsNormal(n)
    ensures Components(windows, x + [c] + n) == Components(windows, x) + [n]
  {
    DriveKeptAfterSep(windows, x, c, n);
    NamesAppendName(windows, AfterPrefix(windows, x), c, n);
  }

  /** A trailing separator adds no component. */
  lemma ComponentsTrailingSep(windows: bool, x: Bytes, c: byte)
    requires IsSep(windows, c)
    ensures Components(windows, x + [c]) == Components(windows, x)
  {
    var s := x + [c];
    assert x + [c] + [] == s;
    DriveKeptAfterSep(windows, x, c, []);
    NamesTrailingSep(windows, AfterPrefix(windows, x), c);
    if HasDrive(windows, x) {
      assert AfterPrefix(windows, s) == AfterPrefix(windows, x) + [c];
    }
  }

  /** Joining a normal name adds exactly that name as the last component. */
  lemma JoinComponents(windows: bool, base: Bytes, n: Bytes)
    requires ValidName(windows, n) && IsNormal(n)
    ensures Components(windows, Join(windows, base, n)) == Components(windows, base) + [n]
  {
    if NeedsSep(windows, base) {
      ComponentsAppendName(windows, base, MainSep(windows), n);
    } else if base == [] {
      assert Join(windows, base, n) == n;
      NameHasNoDrive(windows, n);
      PiecesOfName(windows, n);
      KeepNormalSingle(n);
    } else if HasDrive(windows, base) && |base| == 2 {
      var j := Join(windows, base, n);
      assert j == base + n && j[..2] == base && j[2..] == n;
      assert j[0] == base[0] && j[1] == base[1];
      assert AfterPrefix(windows, j) == n;
      PiecesOfName(windows, n);
      KeepNormalSingle(n);
      assert base[..2] == base && AfterPrefix(windows, base) == [];
      assert Names(windows, []) == [] by {
        KeepNormalSingle([]);
      }
      assert Components(windows, base) == [base];
      assert Components(windows, j) == [base] + [n];
    } else {
      var b' := base[..|base| - 1];
      var c := base[|base| - 1];
      assert base == b' + [c];
      assert Join(windows, base, n) == b' + [c] + n;
      ComponentsAppendName(windows, b', c, n);
      ComponentsTrailingSep(windows, b', c);
    }
  }

  /** The components of a walked path are the root's followed by the chain. */
  lemma {:induction false} FullPathComponents(windows: bool, root: Bytes, chain: seq<Bytes>)
    requires ValidChain(windows, chain)
    ensures Components(windows, FullPath(windows, root, chain)) == Components(windows, root) + chain
    decreases |chain|
  {
    if chain == [] {
    } else {
      var init := chain[..|chain| - 1];
      var n := chain[|chain| - 1];
      var p := FullPath(windows, root, init);
      assert ValidChain(windows, init) by {
        forall i | 0 <= i < |init| ensures ValidName(windows, init[i]) && IsNormal(init[i]) {
          assert init[i] == chain[i];
        }
      }
      assert ValidName(windows, n) && IsNormal(n);
      assert FullPath(windows, root, chain) == Join(windows, p, n);
      FullPathComponents(windows, root, init);
      JoinComponents(windows, p, n);
      assert init + [n] == chain;
    }
  }

  /** Names joined with '/' split back into the same names. */
  lemma {:induction false} JoinNamesComponents(windows: bool, chain: seq<Bytes>)
    requires ValidChain(windows, chain)
    ensures Components(windows, JoinNames(SLASH, chain)) == chain
    decreases |chain|
  {
    if chain == [] {
    } else if |chain| == 1 {
      NameHasNoDrive(windows, chain[0]);
      PiecesOfName(windows, chain[0]);
      KeepNormalSingle(chain[0]);
    } else {
      var init := chain[..|chain| - 1];
      var n := chain[|chain| - 1];
      assert JoinNames(SLASH, chain) == JoinNames(SLASH, init) + [SLASH] + n;
      JoinNamesComponents(windows, init);
      ComponentsAppendName(windows, JoinNames(SLASH, init), SLASH, n);
      assert init + [n] == chain;
    }
  }

  /** Names joined with '/' end in the last name, not in a separator or `.`. */
  lemma JoinNamesLastPiece(windows: bool, chain: seq<Bytes>)
    requires ValidChain(windows, chain) && chain != []
    ensures var ps := Pieces(windows, JoinNames(SLASH, chain)); ps[|ps| - 1] == chain[|chain| - 1]
  {
    var n := chain[|chain| - 1];
    PiecesOfName(windows, n);
    if |chain| > 1 {
      PiecesAtSep(windows, JoinNames(SLASH, chain[..|chain| - 1]), SLASH, n);
    }
  }

  /** A path that ends as a valid name ends needs a separator before the
      next name: its last byte is neither a separator nor a drive's colon. */
  lemma NameEndNeedsSep(windows: bool, p: Bytes, name: Bytes)
    requires ValidName(windows, name) && |p| > 0 && p[|p| - 1] == name[|name| - 1]
    ensures NeedsSep(windows, p)
  {
    assert name[|name| - 1] in name;
  }

  /** Dropping the last name of a valid chain leaves a valid chain. */
  lemma ValidChainInit(windows: bool, chain: seq<Bytes>)
    requires ValidChain(windows, chain) && chain != []
    ensures ValidChain(windows, chain[..|chain| - 1])
    ensures ValidName(windows, chain[|chain| - 1]) && IsNormal(chain[|chain| - 1])
  {
    var init := chain[..|chain| - 1];
    forall i | 0 <= i < |init| ensures ValidName(windows, init[i]) && IsNormal(init[i]) {
      assert init[i] == chain[i];
    }
  }

  /** Names joined by a separator end in the last name's last byte. */
  lemma JoinNamesLastByte(sep: byte, chain: seq<Bytes>)
    requires chain != [] && |chain[|chain| - 1]| > 0
    ensures var j := JoinNames(sep, chain); var n := chain[|chain| - 1];
      |j| > 0 && j[|j| - 1] == n[|n| - 1]
  {
    if |chain| > 1 {
      assert JoinNames(sep, chain) == JoinNames(sep, chain[..|chain| - 1]) + [sep] + chain[|chain| - 1];
    }
  }

  /** A walked path is the root, one separator if the root needs one, and the
      chain's names joined by the main separator. */
  lemma {:induction false} FullPathShape(windows: bool, root: Bytes, chain: seq<Bytes>)
    requires ValidChain(windows, chain) && chain != []
    ensures FullPath(windows, root, chain)
         == root + (if NeedsSep(windows, root) then [MainSep(windows)] else []) + JoinNames(MainSep(windows), chain)
    decreases |chain|
  {
    var sep := MainSep(windows);
    var pre := root + (if NeedsSep(windows, root) then [sep] else []);
    var init := chain[..|chain| - 1];
    var n := chain[|chain| - 1];
    if |chain| == 1 {
      assert init == [];
      assert FullPath(windows, root, chain) == Join(windows, root, n);
      assert JoinNames(sep, chain) == n;
    } else {
      ValidChainInit(windows, chain);
      ValidChainInit(windows, init);
      FullPathShape(windows, root, init);
      var p := FullPath(windows, root, init);
      var q := JoinNames(sep, init);
      var last := init[|init| - 1];
      JoinNamesLastByte(sep, init);
      assert p == pre + q;
      assert p[|p| - 1] == q[|q| - 1];
      NameEndNeedsSep(windows, p, last);
      assert FullPath(windows, root, chain) == p + [sep] + n;
      assert JoinNames(sep, chain) == q + [sep] + n;
      assert pre + q + [sep] + n == pre + (q + [sep] + n);
    }
  }

  /** On paths that share a root, the path order is the order of the chains. */
  lemma WalkedPathOrder(windows: bool, root: Bytes, a: seq<Bytes>, b: seq<Bytes>)
    requires ValidChain(windows, a) && ValidChain(windows, b)
    ensures PathLt(windows, FullPath(windows, root, a), FullPath(windows, root, b)) <==> ChainLt(a, b)
  {
    FullPathComponents(windows, root, a);
    FullPathComponents(windows, root, b);
    NameLtIsStrictTotalOrder();
    LexCommonPrefix(NameLt, Components(windows, root), a, b);
  }
}

=== FILE: tree.dfy ===
/** A finite directory tree standing in for the file system the core reads.
    Each place where the core can observe an I/O failure carries an optional
    error: listing a directory, one item of a listing, reading an entry's
    metadata, and opening or reading a file. */
module FsTree {
  import opened Bytes
  import opened Wrappers
  import opened Io
  import opened Paths
  import opened Order

  datatype Node =
    | File(contents: Bytes, readErr: Option<IoError>)
    | Dir(entries: seq<Entry>, listErr: Option<IoError>)
      /** Symbolic links, sockets, devices, pipes: neither file nor directory. */
    | Special

  datatype Entry =
    | Entry(name: Bytes, statErr: Option<IoError>, node: Node)
      /** The listing yields an error in place of an entry. */
    | BadEntry(err: IoError)

  /** `HIDDEN_ENTRY_PREFIX`: a name starting with '.'. */
  predicate Hidden(name: Bytes) {
    |name| > 0 && name[0] == DOT
  }

  /** A name `read_dir` can yield: a valid, normal name other than `..`. */
  predicate ListedName(windows: bool, n: Bytes) {
    ValidName(windows, n) && IsNormal(n) && n != [DOT, DOT]
  }

  /** Directories list each name at most once, and only listable names. */
  predicate WellFormed(windows: bool, node: Node)
    decreases node
  {
    match node
    case Dir(es, _) =>
      (forall i :: 0 <= i < |es| && es[i].Entry? ==> ListedName(windows, es[i].name))
      && (forall i, j :: 0 <= i < j < |es| && es[i].Entry? && es[j].Entry? ==> es[i].name != es[j].name)
      && (forall i :: 0 <= i < |es| && es[i].Entry? ==> WellFormed(windows, es[i].node))
    case _ => true
  }

  predicate VisibleEntry(e: Entry) {
    e.Entry? && !Hidden(e.name)
  }

  // ---- what a successful walk reports --------------------------------------

  /** The visible regular files beneath `node`, each as `prefix` followed by
      the names leading to it, in listing order. The walker returns these in
      some order; this is the reference it is proved against. */
  function FilesIn(node: Node, prefix: seq<Bytes>): seq<seq<Bytes>>
    decreases node
  {
    if node.Dir? then FilesFrom(node, 0, prefix) else []
  }

  function FilesFrom(node: Node, i: nat, prefix: seq<Bytes>): seq<seq<Bytes>>
    requires node.Dir? && i <= |node.entries|
    decreases node, |node.entries| - i
  {
    if i == |node.entries| then []
    else EntryFiles(node.entries[i], prefix) + FilesFrom(node, i + 1, prefix)
  }

  /** A hidden entry contributes nothing, and neither does anything beneath it. */
  function EntryFiles(e: Entry, prefix: seq<Bytes>): seq<seq<Bytes>>
    decreases e
  {
    if !VisibleEntry(e) then []
    else match e.node
      case File(_, _) => [prefix + [e.name]]
      case Dir(_, _) => FilesIn(e.node, prefix + [e.name])
      case Special => []
  }

  /** `names` leads from `node` through visible directories to a visible file. */
  predicate VisibleFileAt(node: Node, names: seq<Bytes>)
    decreases node, 1
  {
    node.Dir? && |names| > 0 &&
    exists k :: 0 <= k < |node.entries| && EntryLeadsTo(node.entries[k], names)
  }

  predicate EntryLeadsTo(e: Entry, names: seq<Bytes>)
    requires |names| > 0
    decreases e
  {
    VisibleEntry(e) && e.name == names[0] &&
    if |names| == 1 then e.node.File?
    else e.node.Dir? && VisibleFileAt(e.node, names[1..])
  }

  // ---- when a walk succeeds ------------------------------------------------

  /** What `push_entries` needs of one entry: the listing item is readable
      and, unless the entry is hidden, so is its type. */
  predicate EntryOk(e: Entry) {
    e.Entry? && (Hidden(e.name) || e.statErr.None?)
  }

  predicate ListOk(node: Node) {
    node.Dir? && node.listErr.None? &&
    forall i :: 0 <= i < |node.entries| ==> EntryOk(node.entries[i])
  }

  predicate VisibleDir(e: Entry) {
    VisibleEntry(e) && e.node.Dir?
  }

  /** Every directory the walk descends into lists without error. */
  predicate WalkOk(node: Node)
    decreases node
  {
    ListOk(node) &&
    forall i :: 0 <= i < |node.entries| && VisibleDir(node.entries[i]) ==> WalkOk(node.entries[i].node)
  }

  // ---- when a walk fails -----------------------------------------------------

  /** The listing item fails `push_entries`: it is unreadable, or it is a
      visible entry whose type cannot be read. */
  predicate EntryErr(e: Entry, err: IoError) {
    (e.BadEntry? && e.err == err) || (e.Entry? && !Hidden(e.name) && e.statErr == Some(err))
  }

  /** The error listing `node` stops at: `node` is not a directory, its
      listing fails, or the first listing item that fails. */
  predicate ListErr(node: Node, err: IoError) {
    if !node.Dir? then err == IoError(NotADirectory, [])
    else if node.listErr.Some? then err == node.listErr.value
    else exists k ::
      0 <= k < |node.entries| && EntryErr(node.entries[k], err) &&
      forall j :: 0 <= j < k ==> EntryOk(node.entries[j])
  }

  /** An error the walk from `node` can stop at: the one listing `node`
      stops at, or, once `node` lists cleanly, one met beneath a visible
      subdirectory. Which subdirectory comes first is the stack's choice. */
  predicate WalkErr(node: Node, err: IoError)
    decreases node
  {
    ListErr(node, err) ||
    (ListOk(node) &&
     exists k :: 0 <= k < |node.entries| && VisibleDir(node.entries[k]) && WalkErr(node.entries[k].node, err))
  }

  /** A walk that can stop at an error does not succeed. */
  lemma {:induction false} WalkErrNotOk(node: Node, err: IoError)
    requires WalkErr(node, err)
    ensures !WalkOk(node)
    decreases node
  {
    if !ListErr(node, err) {
      var k :| 0 <= k < |node.entries| && VisibleDir(node.entries[k]) && WalkErr(node.entries[k].node, err);
      WalkErrNotOk(node.entries[k].node, err);
    } else if node.Dir? && node.listErr.None? {
      var k :| 0 <= k < |node.entries| && EntryErr(node.entries[k], err);
      assert !EntryOk(node.entries[k]);
    }
  }

  /** Number of nodes, the walk's termination measure. */
  function Size(node: Node): nat
    decreases node
  {
    if node.Dir? then 1 + SizeFrom(node, 0) else 1
  }

  function SizeFrom(node: Node, i: nat): nat
    requires node.Dir? && i <= |node.entries|
    decreases node, |node.entries| - i
  {
    if i == |node.entries| then 0
    else (if node.entries[i].Entry? then Size(node.entries[i].node) else 0) + SizeFrom(node, i + 1)
  }

  // ---- opening a path ------------------------------------------------------

  /** Index of the first entry called `name`. */
  function FindEntry(es: seq<Entry>, name: Bytes, from: nat): (r: Option<nat>)
    requires from <= |es|
    ensures r.Some? ==> from <= r.value < |es| && es[r.value].Entry? && es[r.value].name == name
    ensures r.Some? ==> forall j :: from <= j < r.value ==> !(es[j].Entry? && es[j].name == name)
    ensures r.None? <==> forall j :: from <= j < |es| ==> !(es[j].Entry? && es[j].name == name)
    decreases |es| - from
  {
    if from == |es| then None
    else if es[from].Entry? && es[from].name == name then Some(from)
    else FindEntry(es, name, from + 1)
  }

  /** Resolves names one by one below `node`, as opening a path or
      `try_exists` does: `Success(None)` when a name is absent, an error when
      an intermediate node is not a directory or an entry's metadata cannot be
      read. */
  function Lookup(node: Node, names: seq<Bytes>): (r: Result<Option<Node>, IoError>)
    ensures names == [] ==> r == Success(Some(node))
    ensures names != [] && !node.Dir? ==> r.Failure? && r.error.kind == NotADirectory
    ensures names != [] && node.Dir? && FindEntry(node.entries, names[0], 0).None? ==> r == Success(None)
    decreases node
  {
    if names == [] then Success(Some(node))
    else match node
      case Dir(es, _) =>
        (match FindEntry(es, names[0], 0)
         case None => Success(None)
         case Some(i) =>
           if es[i].statErr.Some? then Failure(es[i].statErr.value)
           else Lookup(es[i].node, names[1..]))
      case _ => Failure(IoError(NotADirectory, []))
  }

  /** Reading an existing node as a file (`update_mmap`). */
  function Contents(node: Node): (r: Result<Bytes, IoError>)
    ensures r.Success? <==> node.File? && node.readErr.None?
    ensures r.Success? ==> r.value == node.contents
    ensures node.Dir? ==> r == Failure(IoError(IsADirectory, []))
  {
    match node
    case File(c, None) => Success(c)
    case File(_, Some(e)) => Failure(e)
    case Dir(_, _) => Failure(IoError(IsADirectory, []))
    case Special => Failure(IoError(OtherKind, []))
  }

  /** Opening and reading the file reached through `names`. */
  function ReadFile(node: Node, names: seq<Bytes>): (r: Result<Bytes, IoError>)
    ensures Lookup(node, names) == Success(None) ==> r == Failure(IoError(NotFound, []))
    ensures r.Success? ==> var l := Lookup(node, names);
      l.Success? && l.value.Some? && l.value.value.File? && l.value.value.readErr.None? &&
      r.value == l.value.value.contents
  {
    match Lookup(node, names)
    case Failure(e) => Failure(e)
    case Success(None) => Failure(IoError(NotFound, []))
    case Success(Some(f)) => Contents(f)
  }
  // ---- lemmas about the reference walk -------------------------------------

  /** A path is among an entry's files exactly when it extends the prefix
      with names the entry leads along to a visible file. */
  lemma {:induction false} EntryFilesMembers(e: Entry, p: seq<Bytes>, c: seq<Bytes>)
    ensures c in EntryFiles(e, p) <==> |c| > |p| && c[..|p|] == p && EntryLeadsTo(e, c[|p|..])
    decreases e
  {
    if VisibleEntry(e) && |c| > |p| {
      var names := c[|p|..];
      assert c == c[..|p|] + names;
      match e.node
      case File(_, _) =>
        if c == p + [e.name] {
          assert c[..|p|] == p;
        }
      case Dir(_, _) =>
        FilesInMembers(e.node, p + [e.name], c);
        assert names[1..] == c[|p| + 1..];
        assert c[..|p| + 1] == c[..|p|] + [names[0]];
        if c[..|p| + 1] == p + [e.name] {
          assert c[..|p|] == (p + [e.name])[..|p|];
        }
      case Special =>
    } else if VisibleEntry(e) && e.node.Dir? {
      FilesInMembers(e.node, p + [e.name], c);
    }
  }

  lemma {:induction false} FilesFromMembers(node: Node, i: nat, p: seq<Bytes>, c: seq<Bytes>)
    requires node.Dir? && i <= |node.entries|
    ensures c in FilesFrom(node, i, p) <==>
      |c| > |p| && c[..|p|] == p &&
      exists k :: i <= k < |node.entries| && EntryLeadsTo(node.entries[k], c[|p|..])
    decreases node, |node.entries| - i
  {
    if i < |node.entries| {
      EntryFilesMembers(node.entries[i], p, c);
      FilesFromMembers(node, i + 1, p, c);
      if |c| > |p| && c[..|p|] == p {
        if k :| i <= k < |node.entries| && EntryLeadsTo(node.entries[k], c[|p|..]) {
          if k > i {
            assert c in FilesFrom(node, i + 1, p);
          }
        }
      }
    }
  }

  /** Completeness and soundness of the reference walk: it lists exactly the
      paths leading to visible files. */
  lemma {:induction false} FilesInMembers(node: Node, p: seq<Bytes>, c: seq<Bytes>)
    ensures c in FilesIn(node, p) <==> |c| > |p| && c[..|p|] == p && VisibleFileAt(node, c[|p|..])
    decreases node
  {
    if node.Dir? {
      FilesFromMembers(node, 0, p, c);
    }
  }

  /** Distinct entry names make the listed paths distinct. */
  lemma {:induction false} FilesInDistinct(windows: bool, node: Node, p: seq<Bytes>)
    requires WellFormed(windows, node)
    ensures NoDuplicates(FilesIn(node, p))
    decreases node
  {
    if node.Dir? {
      FilesFromDistinct(windows, node, 0, p);
    }
  }

  lemma {:induction false} FilesFromDistinct(windows: bool, node: Node, i: nat, p: seq<Bytes>)
    requires node.Dir? && i <= |node.entries| && WellFormed(windows, node)
    ensures NoDuplicates(FilesFrom(node, i, p))
    decreases node, |node.entries| - i
  {
    if i < |node.entries| {
      var e := node.entries[i];
      var a := EntryFiles(e, p);
      var b := FilesFrom(node, i + 1, p);
      if VisibleEntry(e) && e.node.Dir? {
        FilesInDistinct(windows, e.node, p + [e.name]);
      }
      FilesFromDistinct(windows, node, i + 1, p);
      forall c | c in a ensures c !in b {
        EntryFilesMembers(e, p, c);
        FilesFromMembers(node, i + 1, p, c);
      }
      NoDuplicatesConcat(a, b);
    }
  }

  /** Every name on a path to a visible file is a visible, listable name. */
  lemma {:induction false} VisibleFileAtNames(windows: bool, node: Node, names: seq<Bytes>)
    requires WellFormed(windows, node) && VisibleFileAt(node, names)
    ensures names != []
    ensures forall i :: 0 <= i < |names| ==> ListedName(windows, names[i]) && !Hidden(names[i])
    decreases node
  {
    var k :| 0 <= k < |node.entries| && EntryLeadsTo(node.entries[k], names);
    var e := node.entries[k];
    if |names| > 1 {
      VisibleFileAtNames(windows, e.node, names[1..]);
      forall i | 0 <= i < |names| ensures ListedName(windows, names[i]) && !Hidden(names[i]) {
        if i > 0 {
          assert names[i] == names[1..][i - 1];
        }
      }
    }
  }

  /** On a tree the walk can list, a path to a visible file opens that file. */
  lemma {:induction false} LookupVisibleFile(windows: bool, node: Node, names: seq<Bytes>)
    requires WellFormed(windows, node) && WalkOk(node) && VisibleFileAt(node, names)
    ensures Lookup(node, names).Success? && Lookup(node, names).value.Some?
    ensures Lookup(node, names).value.value.File?
    decreases node
  {
    var es := node.entries;
    var k :| 0 <= k < |es| && EntryLeadsTo(es[k], names);
    var found := FindEntry(es, names[0], 0);
    assert found == Some(k) by {
      assert found.Some?;
      assert es[found.value].name == es[k].name;
    }
    assert EntryOk(es[k]);
    if |names| > 1 {
      LookupVisibleFile(windows, es[k].node, names[1..]);
    }
  }
}

=== FILE: types.dfy ===
/** The records the core returns, and the build target it is compiled for. */
module Types {
  import opened Bytes
  import opened Blake3

  const U64_MODULUS: int := 0x1_0000_0000_0000_0000

  type u64 = x: int | 0 <= x < U64_MODULUS

  /** The `cfg!` switches the core consults: `cfg!(windows)` and
      `cfg!(target_arch = "x86_64")`. */
  datatype Target = Target(windows: bool, x86_64: bool)

  /** One hashed file: its digest, its path relative to the hashed root with
      '/' separators, and the number of bytes hashed. */
  datatype HashedFile = HashedFile(hash: Digest, path: Bytes, size: nat) {

    /** `Deref for HashedFile`: a record reads as its path. */
    function Deref(): (p: Bytes)
      ensures p == IntoPair().0
    {
      path
    }

    /** `From<HashedFile> for (String, Hash)`: keeps the path and the digest
        and drops the size, so the pair and the size give the record back. */
    function IntoPair(): (pr: (Bytes, Digest))
      ensures HashedFile(pr.1, pr.0, size) == this
    {
      (path, hash)
    }
  }

  /** A hashed directory: its name, its records in path order, the aggregate
      digest over the records and the total byte count (`u64`). */
  datatype HashedDirectory = HashedDirectory(dirName: Bytes, files: seq<HashedFile>, hash: Digest, size: u64) {

    /** `Deref for HashedDirectory`: a directory reads as its records. */
    function Deref(): (fs: seq<HashedFile>)
      ensures fs == files
      ensures |fs| == |files|
      ensures forall i :: 0 <= i < |fs| ==> fs[i].Deref() == files[i].path
    {
      files
    }
  }

  /** The `HashMap<String, Hash>` built from pairs: a later pair replaces an
      earlier one with the same path. */
  function PairMap(files: seq<HashedFile>): (m: map<Bytes, Digest>)
    ensures m.Keys == set i | 0 <= i < |files| :: files[i].path
    decreases |files|
  {
    if files == [] then map[]
    else
      var init := files[..|files| - 1];
      var last := files[|files| - 1];
      var m := PairMap(init);
      assert m.Keys + {last.path} == set i | 0 <= i < |files| :: files[i].path by {
        forall p | p in set i | 0 <= i < |files| :: files[i].path
          ensures p in m.Keys + {last.path}
        {
          var i :| 0 <= i < |files| && files[i].path == p;
          if i < |files| - 1 {
            assert init[i] == files[i];
          }
        }
      }
      m[last.IntoPair().0 := last.IntoPair().1]
  }

  /** No two records share a path. */
  predicate DistinctPaths(files: seq<HashedFile>) {
    forall j, k :: 0 <= j < k < |files| ==> files[j].path != files[k].path
  }

  /** With distinct paths, the map sends every record's path to its digest. */
  lemma {:induction false} PairMapLookup(files: seq<HashedFile>, i: nat)
    requires DistinctPaths(files)
    requires i < |files|
    ensures files[i].path in PairMap(files) && PairMap(files)[files[i].path] == files[i].hash
    decreases |files|
  {
    if i < |files| - 1 {
      var init := files[..|files| - 1];
      assert init[i] == files[i];
      PairMapLookup(init, i);
    }
  }
}

=== FILE: util.dfy ===
/** `util.rs`: hashing every visible file beneath a directory into sorted
    records, writing records as a hashfile document, and validating a
    directory against such a document. */
module Util {
  import opened Bytes
  import opened Wrappers
  import opened Io
  import opened Blake3
  import opened Paths
  import opened Order
  import opened FsTree
  import opened Fs
  import opened Types

  const DELIM: byte := 0x20
  const NEWLINE: byte := 0x0A
  const REPLACEMENT: byte := SLASH
  const WINDOWS_MOMENT: byte := BACKSLASH
  /** The carriage return `lines` drops before a line feed. */
  const CR: byte := 0x0D

  // ---- separators ----------------------------------------------------------

  /** `oi_vei`: on Windows every '\' becomes '/'; elsewhere the identity. */
  function OiVei(windows: bool, s: Bytes): (r: Bytes)
    ensures |r| == |s|
    ensures windows ==> forall i :: 0 <= i < |r| ==> r[i] != WINDOWS_MOMENT
    ensures windows ==> forall i :: 0 <= i < |s| && s[i] == WINDOWS_MOMENT ==> r[i] == REPLACEMENT
    ensures !windows ==> r == s
    ensures forall i :: 0 <= i < |s| && s[i] != WINDOWS_MOMENT ==> r[i] == s[i]
  {
    if windows then seq(|s|, i requires 0 <= i < |s| => if s[i] == WINDOWS_MOMENT then REPLACEMENT else s[i])
    else s
  }

  /** Rewriting twice is rewriting once. */
  lemma OiVeiIdempotent(windows: bool, s: Bytes)
    ensures OiVei(windows, OiVei(windows, s)) == OiVei(windows, s)
  {
    var r := OiVei(windows, s);
    assert forall i :: 0 <= i < |r| ==> OiVei(windows, r)[i] == r[i];
  }

  lemma OiVeiAppend(windows: bool, a: Bytes, b: Bytes)
    ensures OiVei(windows, a + b) == OiVei(windows, a) + OiVei(windows, b)
  {
    if windows {
      var l, r := OiVei(windows, a + b), OiVei(windows, a) + OiVei(windows, b);
      forall i | 0 <= i < |l| ensures l[i] == r[i] {
        if i < |a| {
          assert (a + b)[i] == a[i];
        } else {
          assert (a + b)[i] == b[i - |a|];
        }
      }
    }
  }

  /** A path made of names joined by the main separator comes out joined by
      '/' on every target. */
  lemma {:induction false} OiVeiJoinNames(windows: bool, chain: seq<Bytes>)
    requires ValidChain(windows, chain)
    ensures OiVei(windows, JoinNames(MainSep(windows), chain)) == JoinNames(SLASH, chain)
    decreases |chain|
  {
    if windows && chain != [] {
      var n := chain[|chain| - 1];
      assert OiVei(windows, n) == n by {
        assert forall i :: 0 <= i < |n| ==> !IsSep(windows, n[i]);
      }
      if |chain| > 1 {
        var init := chain[..|chain| - 1];
        OiVeiJoinNames(windows, init);
        OiVeiAppend(windows, JoinNames(BACKSLASH, init) + [BACKSLASH], n);
        OiVeiAppend(windows, JoinNames(BACKSLASH, init), [BACKSLASH]);
      }
    }
  }

  // ---- relative paths ------------------------------------------------------

  lemma JoinNamesNonEmpty(sep: byte, chain: seq<Bytes>)
    requires chain != [] && chain[|chain| - 1] != []
    ensures |JoinNames(sep, chain)| > 0
  {
  }

  /** The strip in `hash_files` as written: `prefix_len` is one more than the
      length of `dir_path`, whether or not a separator was inserted after it. */
  function RelativePathAsWritten(windows: bool, dirPath: Bytes, chain: seq<Bytes>): (rel: Bytes)
    requires ValidChain(windows, chain) && chain != []
    ensures |rel| == |FullPath(windows, dirPath, chain)| - |dirPath| - 1
    ensures NeedsSep(windows, dirPath) ==> rel == JoinNames(MainSep(windows), chain)
    ensures !NeedsSep(windows, dirPath) ==> rel == JoinNames(MainSep(windows), chain)[1..]
  {
    FullPathShape(windows, dirPath, chain);
    JoinNamesNonEmpty(MainSep(windows), chain);
    FullPath(windows, dirPath, chain)[|dirPath| + 1..]
  }

  /** The strip as intended: drop `dir_path` and the separator the walk put
      after it, if it put one. It undoes the join, and leaves the names
      joined by the main separator. */
  function RelativePath(windows: bool, dirPath: Bytes, chain: seq<Bytes>): (rel: Bytes)
    requires ValidChain(windows, chain) && chain != []
    ensures rel == JoinNames(MainSep(windows), chain)
    ensures Join(windows, dirPath, rel) == FullPath(windows, dirPath, chain)
  {
    FullPathShape(windows, dirPath, chain);
    FullPath(windows, dirPath, chain)[|dirPath| + (if NeedsSep(windows, dirPath) then 1 else 0)..]
  }

  /** When the walk put a separator after `dir_path` (it is not empty, does
      not end in a separator and is not a bare Windows drive), the two
      strips agree. */
  lemma StripAgreesWhenSepInserted(windows: bool, dirPath: Bytes, chain: seq<Bytes>)
    requires ValidChain(windows, chain) && chain != []
    requires NeedsSep(windows, dirPath)
    ensures RelativePathAsWritten(windows, dirPath, chain) == RelativePath(windows, dirPath, chain)
  {
  }

  /** When the walk put no separator after `dir_path` (it ends in one, or
      on Windows is a bare drive such as `C:`), the strip as written also
      removes the first byte of every relative path. */
  lemma StripAsWrittenDropsAByte(windows: bool, dirPath: Bytes, chain: seq<Bytes>)
    requires ValidChain(windows, chain) && chain != []
    requires !NeedsSep(windows, dirPath)
    ensures |RelativePath(windows, dirPath, chain)| > 0
    ensures RelativePathAsWritten(windows, dirPath, chain) == RelativePath(windows, dirPath, chain)[1..]
  {
    FullPathShape(windows, dirPath, chain);
    JoinNamesNonEmpty(MainSep(windows), chain);
  }

  /** Hashing `/` with a file `ab` at its top records the path as `b`. */
  lemma StripAsWrittenCounterexample()
    ensures RelativePathAsWritten(false, [SLASH], [[0x61, 0x62]]) == [0x62]
    ensures RelativePath(false, [SLASH], [[0x61, 0x62]]) == [0x61, 0x62]
  {
    StripAsWrittenDropsAByte(false, [SLASH], [[0x61, 0x62]]);
  }

  lemma OiVeiTail(windows: bool, s: Bytes)
    requires |s| > 0
    ensures OiVei(windows, s[1..]) == OiVei(windows, s)[1..]
  {
    assert s == s[..1] + s[1..];
    OiVeiAppend(windows, s[..1], s[1..]);
  }

  /** The path `hash_files` records for a walked file: the strip as written,
      then '/' for every '\' on Windows. Below a `dir_path` the walk put a
      separator after, it is the names joined by '/', and it names the file
      again; below one it put none after (a separator-ended `dir_path`, or
      on Windows a bare drive such as `C:`) it has lost its first byte. */
  function RecordPath(windows: bool, dirPath: Bytes, chain: seq<Bytes>): (p: Bytes)
    requires ValidChain(windows, chain) && chain != []
    ensures NeedsSep(windows, dirPath) ==> p == JoinNames(SLASH, chain) && Components(windows, p) == chain
    ensures !NeedsSep(windows, dirPath) ==>
      |p| + 1 == |JoinNames(SLASH, chain)| && p == JoinNames(SLASH, chain)[1..]
  {
    OiVeiJoinNames(windows, chain);
    JoinNamesComponents(windows, chain);
    if NeedsSep(windows, dirPath) then
      StripAgreesWhenSepInserted(windows, dirPath, chain);
      OiVei(windows, RelativePathAsWritten(windows, dirPath, chain))
    else
      StripAsWrittenDropsAByte(windows, dirPath, chain);
      OiVeiTail(windows, RelativePath(windows, dirPath, chain));
      OiVei(windows, RelativePathAsWritten(windows, dirPath, chain))
  }

  /** Below the bare Windows drive `C:`, the walk inserts no separator, so
      the file `ab` is recorded as `b`. */
  lemma BareDriveDropsAByte()
    ensures RecordPath(true, [0x43, COLON], [[0x61, 0x62]]) == [0x62]
  {
    assert !NeedsSep(true, [0x43, COLON]);
    assert JoinNames(SLASH, [[0x61, 0x62]]) == [0x61, 0x62];
  }

  /** The path as intended, from the corrected strip: the names joined by
      '/' for every `dir_path`, naming the file again. */
  function IntendedRecordPath(windows: bool, dirPath: Bytes, chain: seq<Bytes>): (p: Bytes)
    requires ValidChain(windows, chain) && chain != []
    ensures p == JoinNames(SLASH, chain)
    ensures Components(windows, p) == chain
  {
    OiVeiJoinNames(windows, chain);
    JoinNamesComponents(windows, chain);
    OiVei(windows, RelativePath(windows, dirPath, chain))
  }

  /** The recorded path is the intended one exactly when the walk put a
      separator after `dir_path`. */
  lemma RecordPathIsIntended(windows: bool, dirPath: Bytes, chain: seq<Bytes>)
    requires ValidChain(windows, chain) && chain != []
    ensures RecordPath(windows, dirPath, chain) == IntendedRecordPath(windows, dirPath, chain) <==> NeedsSep(windows, dirPath)
  {
  }

  // ---- hash_files ----------------------------------------------------------

  /** The record for one walked file: its contents hashed and counted, its
      path made relative and '/'-separated. Fails as reading the file fails. */
  function HashRecord(t: Target, blake3: Hasher, root: Node, dirPath: Bytes, chain: seq<Bytes>): (r: Result<HashedFile, IoError>)
    requires ValidChain(t.windows, chain) && chain != []
    ensures r.Success? <==> ReadFile(root, chain).Success?
    ensures r.Failure? ==> r.error == ReadFile(root, chain).error
    ensures r.Success? ==> r.value.hash == blake3(ReadFile(root, chain).value)
    ensures r.Success? ==> r.value.size == |ReadFile(root, chain).value|
    ensures r.Success? && NeedsSep(t.windows, dirPath) ==> r.value.path == JoinNames(SLASH, chain)
    ensures r.Success? && !NeedsSep(t.windows, dirPath) ==>
      |r.value.path| + 1 == |JoinNames(SLASH, chain)| && r.value.path == JoinNames(SLASH, chain)[1..]
  {
    var data :- ReadFile(root, chain);
    Success(HashedFile(blake3(data), RecordPath(t.windows, dirPath, chain), |data|))
  }

  /** The visible files of a well-formed tree, sorted: each a valid chain of
      visible names, each once, in strictly increasing order. */
  lemma SortedWalk(windows: bool, root: Node)
    requires WellFormed(windows, root)
    ensures var chains := Sort(ChainLt, FilesIn(root, []));
      && StrictlySorted(ChainLt, chains)
      && (forall c :: c in chains <==> VisibleFileAt(root, c))
      && (forall i :: 0 <= i < |chains| ==> ValidChain(windows, chains[i]) && chains[i] != [])
  {
    var files := FilesIn(root, []);
    var chains := Sort(ChainLt, files);
    ChainLtIsStrictTotalOrder();
    FilesInDistinct(windows, root, []);
    NoDuplicatesPermutation(files, chains);
    SortedDistinctIsStrict(ChainLt, chains);
    forall c ensures c in chains <==> VisibleFileAt(root, c) {
      FilesInMembers(root, [], c);
      assert c in chains <==> c in multiset(files);
      assert c[0..] == c;
    }
    forall i | 0 <= i < |chains| ensures ValidChain(windows, chains[i]) && chains[i] != [] {
      VisibleFileAtNames(windows, root, chains[i]);
    }
  }

  /** The parallel map of `hash_files` with its collect: one record per
      path, in order, or the error of a file that could not be read. */
  method HashEach(t: Target, blake3: Hasher, root: Node, dirPath: Bytes, chains: seq<seq<Bytes>>)
    returns (r: Result<seq<HashedFile>, IoError>)
    requires forall i :: 0 <= i < |chains| ==> ValidChain(t.windows, chains[i]) && chains[i] != []
    ensures r.Success? <==> forall i :: 0 <= i < |chains| ==> ReadFile(root, chains[i]).Success?
    ensures r.Failure? ==> exists i :: 0 <= i < |chains| && ReadFile(root, chains[i]) == Failure(r.error)
    ensures r.Success? ==> |r.value| == |chains|
    ensures r.Success? ==> forall i :: 0 <= i < |chains| ==> HashRecord(t, blake3, root, dirPath, chains[i]) == Success(r.value[i])
  {
    var records: seq<HashedFile> := [];
    var i := 0;
    while i < |chains|
      invariant 0 <= i <= |chains|
      invariant |records| == i
      invariant forall k :: 0 <= k < i ==> HashRecord(t, blake3, root, dirPath, chains[k]) == Success(records[k])
    {
      var rec := HashRecord(t, blake3, root, dirPath, chains[i]);
      if rec.Failure? {
        return Failure(rec.error);
      }
      records := records + [rec.value];
      i := i + 1;
    }
    return Success(records);
  }

  /** Records made from strictly increasing chains are in increasing path
      order, below a `dir_path` the walk put a separator after. */
  lemma RecordsInPathOrder(t: Target, blake3: Hasher, root: Node, dirPath: Bytes, chains: seq<seq<Bytes>>, records: seq<HashedFile>)
    requires NeedsSep(t.windows, dirPath)
    requires StrictlySorted(ChainLt, chains)
    requires |records| == |chains|
    requires forall i :: 0 <= i < |chains| ==>
      ValidChain(t.windows, chains[i]) && chains[i] != [] &&
      HashRecord(t, blake3, root, dirPath, chains[i]) == Success(records[i])
    ensures forall i, j :: 0 <= i < j < |records| ==> PathLt(t.windows, records[i].path, records[j].path)
  {
    forall i, j | 0 <= i < j < |records| ensures PathLt(t.windows, records[i].path, records[j].path) {
      JoinNamesComponents(t.windows, chains[i]);
      JoinNamesComponents(t.windows, chains[j]);
      assert ChainLt(chains[i], chains[j]);
    }
  }

  /** Every directory the walk enters lists, and every visible file reads. */
  predicate Hashable(root: Node) {
    WalkOk(root) && forall c :: c in FilesIn(root, []) ==> ReadFile(root, c).Success?
  }

  /** `records` are the records of the visible files beneath `root`: one per
      file, in the order of the sorted reference walk, each the file's
      digest, size and '/'-separated relative path. */
  predicate IsSnapshot(t: Target, blake3: Hasher, root: Node, dirPath: Bytes, records: seq<HashedFile>) {
    var chains := Sort(ChainLt, FilesIn(root, []));
    && |records| == |chains|
    && forall i :: 0 <= i < |chains| ==>
         ValidChain(t.windows, chains[i]) && chains[i] != [] &&
         HashRecord(t, blake3, root, dirPath, chains[i]) == Success(records[i])
  }

  /** `hash_files`: walks the tree, sorts the paths, and hashes each file.
      The records follow the sorted reference walk one to one, so they do not
      depend on the order the walk met the files in; any error of the walk or
      of one file makes the whole call fail. The records are in path order
      only when the walk put a separator after `dir_path`. */
  method HashFiles(t: Target, blake3: Hasher, root: Node, dirPath: Bytes) returns (r: Result<seq<HashedFile>, IoError>)
    requires WellFormed(t.windows, root)
    ensures r.Success? <==> Hashable(root)
    ensures r.Failure? && !WalkOk(root) ==> WalkErr(root, r.error)
    ensures r.Failure? && WalkOk(root) ==> exists c :: c in FilesIn(root, []) && ReadFile(root, c) == Failure(r.error)
    ensures r.Success? ==> IsSnapshot(t, blake3, root, dirPath, r.value)
    ensures r.Success? && NeedsSep(t.windows, dirPath) ==>
      forall i, j :: 0 <= i < j < |r.value| ==> PathLt(t.windows, r.value[i].path, r.value[j].path)
  {
    var walked :- GetFiles(root);
    ChainLtIsStrictTotalOrder();
    SortIsCanonical(ChainLt, walked, FilesIn(root, []));
    SortedWalk(t.windows, root);
    var chains := Sort(ChainLt, walked);
    assert forall c :: c in chains <==> c in FilesIn(root, []) by {
      forall c ensures c in chains <==> c in FilesIn(root, []) {
        assert c in chains <==> c in multiset(chains);
      }
    }
    var records :- HashEach(t, blake3, root, dirPath, chains);
    if NeedsSep(t.windows, dirPath) {
      RecordsInPathOrder(t, blake3, root, dirPath, chains, records);
    }
    return Success(records);
  }

  /** Collected into a map through `From<HashedFile> for (String, Hash)`, a
      snapshot loses nothing: its paths are distinct, so every record's path
      looks up that record's digest, when the walk put a separator after
      `dir_path`. */
  lemma SnapshotPairMap(t: Target, blake3: Hasher, root: Node, dirPath: Bytes, records: seq<HashedFile>, i: nat)
    requires NeedsSep(t.windows, dirPath)
    requires WellFormed(t.windows, root)
    requires IsSnapshot(t, blake3, root, dirPath, records)
    requires i < |records|
    ensures records[i].path in PairMap(records) && PairMap(records)[records[i].path] == records[i].hash
  {
    var chains := Sort(ChainLt, FilesIn(root, []));
    SortedWalk(t.windows, root);
    RecordsInPathOrder(t, blake3, root, dirPath, chains, records);
    ChainLtIsStrictTotalOrder();
    forall j, k | 0 <= j < k < |records| ensures records[j].path != records[k].path {
      assert PathLt(t.windows, records[j].path, records[k].path);
    }
    PairMapLookup(records, i);
  }

  // ---- serialize_hashed_files ----------------------------------------------

  /** One record's line without its terminator: 64 lowercase hex digits, a
      space, the path. */
  function EncodeLine(f: HashedFile): (line: Bytes)
    ensures |line| == HEX_LEN + 1 + |f.path|
    ensures PlainLine(f.path) ==> PlainLine(line)
  {
    var h := ToHex(f.hash);
    assert NEWLINE !in h by {
      assert forall i :: 0 <= i < |h| ==> h[i] != NEWLINE;
    }
    h + [DELIM] + f.path
  }

  /** `serialize_hashed_files`: each record's line followed by '\n', in order.
      No records give the empty document; otherwise it ends in a line feed. */
  function Serialize(files: seq<HashedFile>): (doc: Bytes)
    ensures files == [] <==> doc == []
    ensures files != [] ==> doc[|doc| - 1] == NEWLINE
    decreases |files|
  {
    if files == [] then [] else EncodeLine(files[0]) + [NEWLINE] + Serialize(files[1..])
  }

  /** The bytes one record takes in the document. */
  function EncodedLength(files: seq<HashedFile>): nat
    decreases |files|
  {
    if files == [] then 0 else HEX_LEN + |files[0].path| + 2 + EncodedLength(files[1..])
  }

  /** The document is 64 + |path| + 2 bytes per record. */
  lemma {:induction false} SerializeLength(files: seq<HashedFile>)
    ensures |Serialize(files)| == EncodedLength(files)
    decreases |files|
  {
    if files != [] {
      SerializeLength(files[1..]);
    }
  }

  /** The fold of `serialize_hashed_files`: appending a record appends its
      line to the document. */
  lemma {:induction false} SerializeAppend(files: seq<HashedFile>, f: HashedFile)
    ensures Serialize(files + [f]) == Serialize(files) + EncodeLine(f) + [NEWLINE]
    decreases |files|
  {
    if files == [] {
      assert [f][1..] == [];
    } else {
      assert (files + [f])[1..] == files[1..] + [f];
      SerializeAppend(files[1..], f);
    }
  }

  // ---- reading a document back ---------------------------------------------

  /** Index of the first `b` in `s`. */
  function IndexOf(s: Bytes, b: byte): (r: Option<nat>)
    ensures r.Some? ==> r.value < |s| && s[r.value] == b && b !in s[..r.value]
    ensures r.None? <==> b !in s
    decreases |s|
  {
    if s == [] then None
    else if s[0] == b then Some(0)
    else match IndexOf(s[1..], b)
      case None => None
      case Some(i) =>
        assert s[..i + 1] == [s[0]] + s[1..][..i];
        Some(i + 1)
  }

  /** Drops one carriage return at the end. */
  function StripCr(line: Bytes): Bytes {
    if |line| > 0 && line[|line| - 1] == CR then line[..|line| - 1] else line
  }

  /** A line that survives `lines` unchanged: no line feed inside, no
      carriage return at the end. */
  predicate PlainLine(line: Bytes) {
    NEWLINE !in line && (|line| == 0 || line[|line| - 1] != CR)
  }

  /** Every record's path is a plain line. */
  predicate PlainPaths(files: seq<HashedFile>) {
    forall i :: 0 <= i < |files| ==> PlainLine(files[i].path)
  }

  /** rayon's `par_lines`: the pieces between line feeds, without a final
      empty piece, each with one trailing carriage return removed. */
  function Lines(s: Bytes): (ls: seq<Bytes>)
    ensures forall i :: 0 <= i < |ls| ==> NEWLINE !in ls[i]
    ensures s == [] ==> ls == []
    decreases |s|
  {
    match IndexOf(s, NEWLINE)
    case None => if s == [] then [] else [StripCr(s)]
    case Some(i) => [StripCr(s[..i])] + Lines(s[i + 1..])
  }

  /** Splitting at line feeds undoes terminating plain lines with them. */
  lemma LinesOfLine(line: Bytes, rest: Bytes)
    requires PlainLine(line)
    ensures Lines(line + [NEWLINE] + rest) == [line] + Lines(rest)
  {
    var s := line + [NEWLINE] + rest;
    assert s[..|line|] == line && s[|line|] == NEWLINE;
    assert s[|line| + 1..] == rest;
    assert IndexOf(s, NEWLINE) == Some(|line|);
  }

  /** `split_once`: the parts before and after the first `d`. */
  function SplitOnce(s: Bytes, d: byte): (r: Option<(Bytes, Bytes)>)
    ensures r.None? <==> d !in s
    ensures r.Some? ==> s == r.value.0 + [d] + r.value.1 && d !in r.value.0
  {
    match IndexOf(s, d)
    case None => None
    case Some(i) =>
      assert s == s[..i] + [d] + s[i + 1..];
      Some((s[..i], s[i + 1..]))
  }

  /** A record's line splits back into its hex digest and its path. */
  lemma SplitEncodedLine(f: HashedFile)
    ensures SplitOnce(EncodeLine(f), DELIM) == Some((ToHex(f.hash), f.path))
    ensures FromHex(ToHex(f.hash)) == Success(f.hash)
  {
    var s := EncodeLine(f);
    var h := ToHex(f.hash);
    assert forall i :: 0 <= i < |h| ==> h[i] != DELIM;
    assert DELIM !in h;
    assert s[..|h|] == h && s[|h|] == DELIM && s[|h| + 1..] == f.path;
    assert IndexOf(s, DELIM) == Some(|h|);
    FromHexToHex(f.hash);
  }

  /** The lines of a document are the records' lines, when no path holds a
      line feed or ends in a carriage return. */
  lemma {:induction false} LinesOfSerialize(files: seq<HashedFile>)
    requires PlainPaths(files)
    ensures |Lines(Serialize(files))| == |files|
    ensures forall i :: 0 <= i < |files| ==> Lines(Serialize(files))[i] == EncodeLine(files[i])
    decreases |files|
  {
    if files != [] {
      var f := files[0];
      var h := ToHex(f.hash);
      assert PlainLine(EncodeLine(f)) by {
        assert forall i :: 0 <= i < |h| ==> h[i] != NEWLINE;
        assert NEWLINE !in h;
        assert PlainLine(f.path);
      }
      LinesOfLine(EncodeLine(f), Serialize(files[1..]));
      assert PlainPaths(files[1..]) by {
        forall i | 0 <= i < |files[1..]| ensures PlainLine(files[1..][i].path) {
          assert files[1..][i] == files[i + 1];
        }
      }
      LinesOfSerialize(files[1..]);
      forall i | 1 <= i < |files| ensures Lines(Serialize(files))[i] == EncodeLine(files[i]) {
        assert files[1..][i - 1] == files[i];
      }
    }
  }

  /** A path that contains a line feed is read back as two lines. */
  lemma LineFeedInPathSplitsRecord(hash: Digest)
    ensures var f := HashedFile(hash, [0x61, NEWLINE, 0x62], 0);
      Lines(Serialize([f])) == [ToHex(hash) + [DELIM, 0x61], [0x62]]
  {
    var f := HashedFile(hash, [0x61, NEWLINE, 0x62], 0);
    var h := ToHex(hash);
    assert forall i :: 0 <= i < |h| ==> h[i] != NEWLINE;
    assert NEWLINE !in h;
    assert Serialize([f]) == (h + [DELIM, 0x61]) + [NEWLINE] + ([0x62] + [NEWLINE] + []);
    LinesOfLine(h + [DELIM, 0x61], [0x62] + [NEWLINE] + []);
    LinesOfLine([0x62], []);
  }

  // ---- validate_data ---------------------------------------------------------

  /** `hash_eq`: byte equality on x86_64, `Hash::eq` elsewhere. Both branches
      decide equality of the digests. */
  function HashEq(t: Target, x: Digest, y: Digest): (r: bool)
    ensures r <==> x == y
  {
    if t.x86_64 then x == y else ConstantTimeEq(x, y)
  }

  /** The names a line's path leads through below the hashed directory. */
  function LineTarget(windows: bool, rel: Bytes): seq<Bytes> {
    Components(windows, rel)
  }

  /** The line's path ends in a separator or `.`, as `a/` and `a/.` do. */
  predicate DirOnly(windows: bool, rel: Bytes) {
    var ps := Pieces(windows, rel);
    !IsNormal(ps[|ps| - 1])
  }

  /** Resolving the path of a line, as `try_exists` and the open do: its
      names looked up one by one below the hashed directory. A path that
      ends in a separator or `.` resolves only to a directory; reaching
      anything else fails with NotADirectory. */
  function Resolve(root: Node, windows: bool, rel: Bytes): (r: Result<Option<Node>, IoError>)
    ensures !DirOnly(windows, rel) ==> r == Lookup(root, LineTarget(windows, rel))
    ensures r.Success? && r.value.Some? && DirOnly(windows, rel) ==> r.value.value.Dir?
    ensures var l := Lookup(root, LineTarget(windows, rel));
      DirOnly(windows, rel) && l.Success? && l.value.Some? && !l.value.value.Dir? ==>
        r == Failure(IoError(NotADirectory, []))
    ensures var l := Lookup(root, LineTarget(windows, rel));
      !(l.Success? && l.value.Some? && !l.value.value.Dir?) ==> r == l
  {
    var l := Lookup(root, LineTarget(windows, rel));
    if DirOnly(windows, rel) && l.Success? && l.value.Some? && !l.value.value.Dir? then
      Failure(IoError(NotADirectory, []))
    else l
  }

  /** `Path::try_exists`: whether the path resolves. A not-found error counts
      as absence; any other error is returned. */
  function TryExists(root: Node, windows: bool, rel: Bytes): (r: Result<bool, IoError>)
    ensures var l := Resolve(root, windows, rel);
      r == Success(true) <==> l.Success? && l.value.Some?
    ensures var l := Resolve(root, windows, rel);
      r.Failure? <==> l.Failure? && l.error.kind != NotFound
    ensures r.Failure? ==> Resolve(root, windows, rel) == Failure(r.error)
  {
    match Resolve(root, windows, rel)
    case Success(found) => Success(found.Some?)
    case Failure(e) => if e.kind == NotFound then Success(false) else Failure(e)
  }

  /** `update_mmap` of a line's path: the contents of the file it resolves
      to. A path ending in a separator or `.` never reads as a file. */
  function Open(root: Node, windows: bool, rel: Bytes): (r: Result<Bytes, IoError>)
    ensures !DirOnly(windows, rel) ==> r == ReadFile(root, LineTarget(windows, rel))
    ensures DirOnly(windows, rel) ==> r.Failure?
  {
    match Resolve(root, windows, rel)
    case Failure(e) => Failure(e)
    case Success(None) => Failure(IoError(NotFound, []))
    case Success(Some(node)) => Contents(node)
  }

  /** A line that passes validation: it has a space, 64 hex digits before
      it, and after it the path of a readable file whose digest is the one
      written. */
  predicate LineHolds(t: Target, blake3: Hasher, root: Node, line: Bytes) {
    match SplitOnce(line, DELIM)
    case None => false
    case Some((hex, rel)) =>
      match FromHex(hex)
      case Failure(_) => false
      case Success(written) =>
        var data := Open(root, t.windows, rel);
        data.Success? && blake3(data.value) == written
  }

  /** A line whose file is absent: the line parses, and resolving its path
      finds nothing or fails with a not-found error. */
  predicate LineMissing(t: Target, root: Node, line: Bytes) {
    match SplitOnce(line, DELIM)
    case None => false
    case Some((hex, rel)) =>
      FromHex(hex).Success? && TryExists(root, t.windows, rel) == Success(false)
  }

  /** A line whose file is there but has changed: the line parses, the file
      reads, and its digest is not the one written. */
  predicate LineChanged(t: Target, blake3: Hasher, root: Node, line: Bytes) {
    match SplitOnce(line, DELIM)
    case None => false
    case Some((hex, rel)) =>
      match FromHex(hex)
      case Failure(_) => false
      case Success(written) =>
        var data := Open(root, t.windows, rel);
        data.Success? && blake3(data.value) != written
  }

  /** A line validation reports: its file is missing or has changed. */
  predicate Reported(t: Target, blake3: Hasher, root: Node, line: Bytes) {
    LineMissing(t, root, line) || LineChanged(t, blake3, root, line)
  }

  /** Validation reports `line` as the path `p`: its file is missing or
      changed, and `p` is `dir` joined with the line's path. */
  predicate ReportsAs(t: Target, blake3: Hasher, root: Node, dir: Bytes, line: Bytes, p: Bytes) {
    Reported(t, blake3, root, line) && DELIM in line && p == Join(t.windows, dir, SplitOnce(line, DELIM).value.1)
  }

  /** A line whose path cannot be resolved: the line parses, and resolving
      its path fails with an error other than not-found. */
  predicate LineUnresolvable(t: Target, root: Node, line: Bytes) {
    match SplitOnce(line, DELIM)
    case None => false
    case Some((hex, rel)) =>
      FromHex(hex).Success? && TryExists(root, t.windows, rel).Failure?
  }

  /** A line whose path exists but cannot be read as a file: the line
      parses, the path resolves, and opening or reading it fails. */
  predicate LineUnreadable(t: Target, root: Node, line: Bytes) {
    match SplitOnce(line, DELIM)
    case None => false
    case Some((hex, rel)) =>
      FromHex(hex).Success? && TryExists(root, t.windows, rel) == Success(true) && Open(root, t.windows, rel).Failure?
  }

  /** What one line contributes, the closure of the `filter_map` in
      `validate_data`: nothing when the file is there and unchanged, the
      joined path when it is missing or changed, an error otherwise.
      `dir` is the already rewritten `dir_path`. */
  function CheckLine(t: Target, blake3: Hasher, root: Node, dir: Bytes, line: Bytes): (r: Option<Result<Bytes, IoError>>)
    ensures r.None? <==> LineHolds(t, blake3, root, line)
    ensures DELIM !in line ==> r == Some(Failure(IoError(NotFound, line)))
    ensures DELIM in line && FromHex(SplitOnce(line, DELIM).value.0).Failure? ==>
      r == Some(Failure(IoError(InvalidData, SplitOnce(line, DELIM).value.0)))
    ensures r.Some? && r.value.Success? ==>
      DELIM in line && r.value.value == Join(t.windows, dir, SplitOnce(line, DELIM).value.1)
    ensures Reported(t, blake3, root, line) <==> r.Some? && r.value.Success?
    ensures Reported(t, blake3, root, line) ==>
      r == Some(Success(Join(t.windows, dir, SplitOnce(line, DELIM).value.1)))
    ensures LineUnresolvable(t, root, line) ==>
      r == Some(Failure(TryExists(root, t.windows, SplitOnce(line, DELIM).value.1).error))
    ensures LineUnreadable(t, root, line) ==>
      r == Some(Failure(Open(root, t.windows, SplitOnce(line, DELIM).value.1).error))
  {
    match SplitOnce(line, DELIM)
    case None => Some(Failure(IoError(NotFound, line)))
    case Some((hex, rel)) =>
      match FromHex(hex)
      case Failure(_) => Some(Failure(IoError(InvalidData, hex)))
      case Success(written) =>
        var path := Join(t.windows, dir, rel);
        match TryExists(root, t.windows, rel)
        case Failure(e) => Some(Failure(e))
        case Success(false) => Some(Success(path))
        case Success(true) =>
          match Open(root, t.windows, rel)
          case Failure(e) => Some(Failure(e))
          case Success(data) => if HashEq(t, written, blake3(data)) then None else Some(Success(path))
  }

  /** A line whose path ends in '/' does not name a regular file: below a
      directory holding the file `a`, the line for `a/` fails with
      NotADirectory instead of passing. */
  lemma TrailingSepNamesNoFile(t: Target, blake3: Hasher, dir: Bytes, x: Bytes)
    ensures var root := Dir([Entry([0x61], None, File(x, None))], None);
      CheckLine(t, blake3, root, dir, ToHex(blake3(x)) + [DELIM, 0x61, SLASH])
        == Some(Failure(IoError(NotADirectory, [])))
  {
    var root := Dir([Entry([0x61], None, File(x, None))], None);
    var rel: Bytes := [0x61, SLASH];
    var f := HashedFile(blake3(x), rel, 0);
    assert EncodeLine(f) == ToHex(blake3(x)) + [DELIM, 0x61, SLASH];
    SplitEncodedLine(f);
    SlashAfterName(t.windows);
    assert Lookup(root, [[0x61]]) == Success(Some(File(x, None))) by {
      assert FindEntry(root.entries, [0x61], 0) == Some(0);
      assert [[0x61]][1..] == [];
    }
    assert Resolve(root, t.windows, rel) == Failure(IoError(NotADirectory, []));
  }

  /** `a/` splits into the name `a` and an empty last piece. */
  lemma PiecesOfSlashAfterName(windows: bool)
    ensures Pieces(windows, [0x61, SLASH]) == [[0x61], []]
  {
    PiecesCons(windows, SLASH, []);
    assert [SLASH] == [SLASH] + [];
    assert Pieces(windows, [SLASH]) == [[], []];
    assert IsSep(windows, SLASH) && !IsSep(windows, 0x61);
    PiecesCons(windows, 0x61, [SLASH]);
    assert [0x61, SLASH] == [0x61] + [SLASH];
    assert [0x61] + Pieces(windows, [SLASH])[0] == [0x61];
  }

  /** `a/` ends in a separator and leads through the single name `a`. */
  lemma SlashAfterName(windows: bool)
    ensures DirOnly(windows, [0x61, SLASH]) && LineTarget(windows, [0x61, SLASH]) == [[0x61]]
  {
    var rel: Bytes := [0x61, SLASH];
    PiecesOfSlashAfterName(windows);
    var ps: seq<Bytes> := [[0x61], []];
    assert KeepNormal(ps) == [[0x61]] by {
      assert ps[..1] == [[0x61]];
      KeepNormalSingle([0x61]);
    }
    assert !HasDrive(windows, rel) && AfterPrefix(windows, rel) == rel;
  }

  /** The line makes validation fail. */
  predicate LineErrs(t: Target, blake3: Hasher, root: Node, dir: Bytes, line: Bytes) {
    var o := CheckLine(t, blake3, root, dir, line);
    o.Some? && o.value.Failure?
  }

  /** The `filter_map` and `collect` of `validate_data`, on the outcomes of
      the lines: the reported values in order, or the error of a failing
      line. */
  function Collect<T(!new), E>(outs: seq<Option<Result<T, E>>>): (r: Result<seq<T>, E>)
    ensures r.Success? <==> forall i :: 0 <= i < |outs| ==> !(outs[i].Some? && outs[i].value.Failure?)
    ensures r.Failure? ==> exists i :: 0 <= i < |outs| && outs[i] == Some(Failure(r.error))
    ensures r.Success? ==> (r.value == [] <==> forall i :: 0 <= i < |outs| ==> outs[i].None?)
    ensures r.Success? ==> forall x :: x in r.value <==> exists i :: 0 <= i < |outs| && outs[i] == Some(Success(x))
    decreases |outs|
  {
    if outs == [] then Success([])
    else
      var rest := Collect(outs[1..]);
      assert forall i :: 1 <= i < |outs| ==> outs[1..][i - 1] == outs[i];
      match outs[0]
      case None => rest
      case Some(Failure(e)) => Failure(e)
      case Some(Success(x)) => if rest.Failure? then rest else Success([x] + rest.value)
  }

  /** One reported value collects to itself. */
  lemma CollectOne<T(!new), E>(x: T)
    ensures Collect<T, E>([Some(Success(x))]) == Success([x])
  {
    var outs: seq<Option<Result<T, E>>> := [Some(Success(x))];
    assert outs[1..] == [];
    assert Collect(outs[1..]) == Success([]);
    assert [x] + [] == [x];
  }

  /** Every line of a document passes. */
  predicate AllLinesHold(t: Target, blake3: Hasher, root: Node, lines: seq<Bytes>) {
    forall i :: 0 <= i < |lines| ==> LineHolds(t, blake3, root, lines[i])
  }

  /** No line of a document makes validation fail. */
  predicate NoLineErrs(t: Target, blake3: Hasher, root: Node, dir: Bytes, lines: seq<Bytes>) {
    forall i :: 0 <= i < |lines| ==> !LineErrs(t, blake3, root, dir, lines[i])
  }

  /** The outcome of every line of a document, in line order. */
  function Outcomes(t: Target, blake3: Hasher, root: Node, dir: Bytes, lines: seq<Bytes>): (outs: seq<Option<Result<Bytes, IoError>>>)
    ensures |outs| == |lines|
    ensures forall i :: 0 <= i < |lines| ==> outs[i] == CheckLine(t, blake3, root, dir, lines[i])
  {
    seq(|lines|, i requires 0 <= i < |lines| => CheckLine(t, blake3, root, dir, lines[i]))
  }

  /** What collecting the outcomes of a document's lines means line by line. */
  lemma CollectLines(t: Target, blake3: Hasher, root: Node, dir: Bytes, lines: seq<Bytes>)
    ensures var r := Collect(Outcomes(t, blake3, root, dir, lines));
      r.Success? <==> NoLineErrs(t, blake3, root, dir, lines)
    ensures var r := Collect(Outcomes(t, blake3, root, dir, lines));
      r == Success([]) <==> AllLinesHold(t, blake3, root, lines)
    ensures var r := Collect(Outcomes(t, blake3, root, dir, lines));
      r.Success? ==> forall p :: p in r.value <==> exists i :: 0 <= i < |lines| && ReportsAs(t, blake3, root, dir, lines[i], p)
  {
    var outs := Outcomes(t, blake3, root, dir, lines);
    var r := Collect(outs);
    if r.Failure? {
      var i :| 0 <= i < |outs| && outs[i] == Some(Failure(r.error));
      assert LineErrs(t, blake3, root, dir, lines[i]);
    }
    if r.Success? {
      CollectReported(t, blake3, root, dir, lines, r.value);
    }
  }

  /** The collected paths are exactly those the missing or changed lines
      report. */
  lemma CollectReported(t: Target, blake3: Hasher, root: Node, dir: Bytes, lines: seq<Bytes>, failed: seq<Bytes>)
    requires Collect(Outcomes(t, blake3, root, dir, lines)) == Success(failed)
    ensures forall p :: p in failed <==> exists i :: 0 <= i < |lines| && ReportsAs(t, blake3, root, dir, lines[i], p)
  {
    var outs := Outcomes(t, blake3, root, dir, lines);
    forall p ensures p in failed <==> exists i :: 0 <= i < |lines| && ReportsAs(t, blake3, root, dir, lines[i], p) {
      if p in failed {
        var i :| 0 <= i < |outs| && outs[i] == Some(Success(p));
        assert ReportsAs(t, blake3, root, dir, lines[i], p);
      }
      if exists i :: 0 <= i < |lines| && ReportsAs(t, blake3, root, dir, lines[i], p) {
        var i :| 0 <= i < |lines| && ReportsAs(t, blake3, root, dir, lines[i], p);
        assert outs[i] == Some(Success(p));
      }
    }
  }

  /** The body of `validate_data` after the split into lines: `None` when
      every line names an unchanged file, otherwise the joined paths of the
      missing or changed ones; an error if any line is malformed or its file
      cannot be checked. `dir` is the already rewritten `dir_path`. */
  function ValidateLines(t: Target, blake3: Hasher, root: Node, dir: Bytes, lines: seq<Bytes>): (r: Result<Option<seq<Bytes>>, IoError>)
    ensures r.Success? <==> NoLineErrs(t, blake3, root, dir, lines)
    ensures r == Success(None) <==> AllLinesHold(t, blake3, root, lines)
    ensures lines == [] ==> r == Success(None)
    ensures r.Success? && r.value.Some? ==>
      && r.value.value != []
      && forall p :: p in r.value.value <==> exists i :: 0 <= i < |lines| && ReportsAs(t, blake3, root, dir, lines[i], p)
  {
    CollectLines(t, blake3, root, dir, lines);
    match Collect(Outcomes(t, blake3, root, dir, lines))
    case Failure(e) => Failure(e)
    case Success(failed) => if |failed| == 0 then Success(None) else Success(Some(failed))
  }

  /** `validate_data`: rewrites the separators of `dir_path`, splits the
      document into lines and checks every line. An empty document validates;
      a document with a line that has no space, such as a blank line, fails. */
  function ValidateData(t: Target, blake3: Hasher, root: Node, dirPath: Bytes, data: Bytes): (r: Result<Option<seq<Bytes>>, IoError>)
    ensures data == [] ==> r == Success(None)
    ensures (exists i :: 0 <= i < |Lines(data)| && DELIM !in Lines(data)[i]) ==> r.Failure?
  {
    ValidateLines(t, blake3, root, OiVei(t.windows, dirPath), Lines(data))
  }

  // ---- round trip ------------------------------------------------------------

  /** A record line written for a file passes validation while the file is
      unchanged, when the walk put a separator after `dir_path`. */
  lemma RecordLineHolds(t: Target, blake3: Hasher, root: Node, dirPath: Bytes, chain: seq<Bytes>, f: HashedFile)
    requires NeedsSep(t.windows, dirPath)
    requires ValidChain(t.windows, chain) && chain != []
    requires HashRecord(t, blake3, root, dirPath, chain) == Success(f)
    ensures LineHolds(t, blake3, root, EncodeLine(f))
  {
    SplitEncodedLine(f);
    JoinNamesComponents(t.windows, chain);
    JoinNamesLastPiece(t.windows, chain);
    assert f.path == JoinNames(SLASH, chain);
    assert !DirOnly(t.windows, f.path);
    assert LineTarget(t.windows, f.path) == chain;
    assert Open(root, t.windows, f.path) == ReadFile(root, chain);
  }

  /** Validating the document written from `hash_files`' records against the
      same tree reports nothing, provided the walk put a separator after
      `dir_path` and no path holds a line feed or ends in a carriage return. */
  lemma ValidateSerialized(t: Target, blake3: Hasher, root: Node, dirPath: Bytes, chains: seq<seq<Bytes>>, records: seq<HashedFile>)
    requires NeedsSep(t.windows, dirPath)
    requires |records| == |chains|
    requires forall i :: 0 <= i < |chains| ==>
      ValidChain(t.windows, chains[i]) && chains[i] != [] &&
      HashRecord(t, blake3, root, dirPath, chains[i]) == Success(records[i])
    requires PlainPaths(records)
    ensures ValidateData(t, blake3, root, dirPath, Serialize(records)) == Success(None)
  {
    LinesOfSerialize(records);
    var lines := Lines(Serialize(records));
    forall i | 0 <= i < |lines| ensures LineHolds(t, blake3, root, lines[i]) {
      RecordLineHolds(t, blake3, root, dirPath, chains[i], records[i]);
    }
  }

  // ---- the strip as written, below a dir_path the walk put no separator after ----

  /** A directory of two visible files lists them in order. */
  lemma FilesOfTwo(root: Node, n0: Bytes, x: Bytes, n1: Bytes, y: Bytes)
    requires !Hidden(n0) && !Hidden(n1)
    requires root == Dir([Entry(n0, None, File(x, None)), Entry(n1, None, File(y, None))], None)
    ensures FilesIn(root, []) == [[n0], [n1]]
  {
    assert [] + [n0] == [n0] && [] + [n1] == [n1];
    assert EntryFiles(root.entries[0], []) == [[n0]];
    assert EntryFiles(root.entries[1], []) == [[n1]];
    assert FilesFrom(root, 2, []) == [];
    assert FilesFrom(root, 1, []) == [[n1]];
    assert FilesFrom(root, 0, []) == [[n0]] + [[n1]];
  }

  /** A directory of one visible file lists it. */
  lemma FilesOfOne(root: Node, n: Bytes, x: Bytes)
    requires !Hidden(n)
    requires root == Dir([Entry(n, None, File(x, None))], None)
    ensures FilesIn(root, []) == [[n]]
  {
    assert [] + [n] == [n];
    assert EntryFiles(root.entries[0], []) == [[n]];
    assert FilesFrom(root, 1, []) == [];
    assert FilesFrom(root, 0, []) == [[n]] + [];
  }

  /** Below a `dir_path` the walk put no separator after, a file at the top is
      recorded without its first byte. */
  lemma TopRecord(t: Target, blake3: Hasher, root: Node, dirPath: Bytes, n: Bytes, f: HashedFile)
    requires !NeedsSep(t.windows, dirPath) && ValidChain(t.windows, [n])
    requires HashRecord(t, blake3, root, dirPath, [n]) == Success(f)
    ensures f.path == n[1..]
  {
    assert JoinNames(SLASH, [n]) == n;
  }

  /** The tail of a valid name that is still normal is a valid name. */
  lemma NameTail(windows: bool, n: Bytes)
    requires ValidChain(windows, [n]) && |n| > 0 && IsNormal(n[1..])
    ensures ValidChain(windows, [n[1..]])
  {
    assert ValidName(windows, [n][0]);
    assert forall i :: 0 <= i < |n[1..]| ==> n[1..][i] == n[i + 1];
  }

  /** Two files whose names differ only in the first byte, at the top of a
      `dir_path` the walk put no separator after (`ab` and `cb` below `/`), are
      recorded with one path (`b`). */
  lemma AsWrittenCollides(t: Target, blake3: Hasher, root: Node, dirPath: Bytes, n0: Bytes, x: Bytes, n1: Bytes, y: Bytes, records: seq<HashedFile>)
    requires !NeedsSep(t.windows, dirPath)
    requires |n0| > 0 && |n1| > 0 && !Hidden(n0) && !Hidden(n1) && n0[1..] == n1[1..]
    requires root == Dir([Entry(n0, None, File(x, None)), Entry(n1, None, File(y, None))], None)
    requires IsSnapshot(t, blake3, root, dirPath, records)
    ensures |records| == 2 && records[0].path == records[1].path == n0[1..]
  {
    FilesOfTwo(root, n0, x, n1, y);
    var files := FilesIn(root, []);
    var chains := Sort(ChainLt, files);
    forall i | 0 <= i < 2 ensures records[i].path == n0[1..] {
      assert chains[i] in multiset(files);
      assert chains[i] == [n0] || chains[i] == [n1];
      TopRecord(t, blake3, root, dirPath, chains[i][0], records[i]);
    }
  }

  /** Below `/`, `ab` and `cb` are both recorded as `b`. */
  lemma AsWrittenCollidesExample(t: Target, blake3: Hasher, root: Node, x: Bytes, y: Bytes, records: seq<HashedFile>)
    requires !t.windows
    requires root == Dir([Entry([0x61, 0x62], None, File(x, None)), Entry([0x63, 0x62], None, File(y, None))], None)
    requires IsSnapshot(t, blake3, root, [SLASH], records)
    ensures |records| == 2 && records[0].path == [0x62] && records[1].path == [0x62]
  {
    AsWrittenCollides(t, blake3, root, [SLASH], [0x61, 0x62], x, [0x63, 0x62], y, records);
  }

  /** Single names compare as paths as they compare as names. */
  lemma PathLtOfNames(windows: bool, a: Bytes, b: Bytes)
    requires ValidChain(windows, [a]) && ValidChain(windows, [b])
    requires NameLt(a, b)
    ensures PathLt(windows, a, b)
  {
    JoinNamesComponents(windows, [a]);
    JoinNamesComponents(windows, [b]);
  }

  /** A name below another is not above it, as a one-name chain either. */
  lemma NameLtAsymmetric(a: Bytes, b: Bytes)
    requires NameLt(a, b)
    ensures !ChainLt([b], [a])
  {
    assert Irreflexive(ByteLt) && Transitive(ByteLt);
    LexIrreflexive(ByteLt, a);
    if NameLt(b, a) {
      LexTransitive(ByteLt, a, b, a);
    }
  }

  /** The records of a tree whose walk is `[n0]`, `[n1]`, in that order. */
  lemma SnapshotOfTwo(t: Target, blake3: Hasher, root: Node, dirPath: Bytes, n0: Bytes, n1: Bytes, records: seq<HashedFile>)
    requires FilesIn(root, []) == [[n0], [n1]] && !ChainLt([n1], [n0])
    requires IsSnapshot(t, blake3, root, dirPath, records)
    ensures |records| == 2 && ValidChain(t.windows, [n0]) && ValidChain(t.windows, [n1])
    ensures HashRecord(t, blake3, root, dirPath, [n0]) == Success(records[0])
    ensures HashRecord(t, blake3, root, dirPath, [n1]) == Success(records[1])
  {
    SortTwo(ChainLt, [n0], [n1]);
  }

  /** Two files at the top of a `dir_path` the walk put no separator after, whose
      names sort one way and whose tails sort the other (`ab` and `ba` below
      `/`, recorded as `b` and `a`) give records out of path order. */
  lemma AsWrittenUnsorted(t: Target, blake3: Hasher, root: Node, dirPath: Bytes, n0: Bytes, x: Bytes, n1: Bytes, y: Bytes, records: seq<HashedFile>)
    requires !NeedsSep(t.windows, dirPath)
    requires |n0| > 0 && |n1| > 0 && !Hidden(n0) && !Hidden(n1) && IsNormal(n0[1..]) && IsNormal(n1[1..])
    requires NameLt(n0, n1) && NameLt(n1[1..], n0[1..])
    requires root == Dir([Entry(n0, None, File(x, None)), Entry(n1, None, File(y, None))], None)
    requires IsSnapshot(t, blake3, root, dirPath, records)
    ensures |records| == 2 && records[0].path == n0[1..] && records[1].path == n1[1..]
    ensures PathLt(t.windows, records[1].path, records[0].path)
  {
    FilesOfTwo(root, n0, x, n1, y);
    NameLtAsymmetric(n0, n1);
    SnapshotOfTwo(t, blake3, root, dirPath, n0, n1, records);
    TopRecord(t, blake3, root, dirPath, n0, records[0]);
    TopRecord(t, blake3, root, dirPath, n1, records[1]);
    NameTail(t.windows, n0);
    NameTail(t.windows, n1);
    PathLtOfNames(t.windows, n1[1..], n0[1..]);
  }

  /** Below `/`, `ab` and `ba` are recorded as `b` and then `a`. */
  lemma AsWrittenUnsortedExample(t: Target, blake3: Hasher, root: Node, x: Bytes, y: Bytes, records: seq<HashedFile>)
    requires !t.windows
    requires root == Dir([Entry([0x61, 0x62], None, File(x, None)), Entry([0x62, 0x61], None, File(y, None))], None)
    requires IsSnapshot(t, blake3, root, [SLASH], records)
    ensures |records| == 2 && records[0].path == [0x62] && records[1].path == [0x61]
    ensures PathLt(t.windows, records[1].path, records[0].path)
  {
    AsWrittenUnsorted(t, blake3, root, [SLASH], [0x61, 0x62], x, [0x62, 0x61], y, records);
  }

  /** A tree with one file at the top has one record, for that file. */
  lemma SnapshotOfOne(t: Target, blake3: Hasher, root: Node, dirPath: Bytes, n: Bytes, records: seq<HashedFile>)
    requires FilesIn(root, []) == [[n]]
    requires IsSnapshot(t, blake3, root, dirPath, records)
    ensures |records| == 1 && ValidChain(t.windows, [n])
    ensures HashRecord(t, blake3, root, dirPath, [n]) == Success(records[0])
  {
    assert Sort(ChainLt, [[n]]) == [[n]];
  }

  /** A line naming `n`'s tail, checked in a directory whose only entry is
      `n`, reports that the tail's file is missing. */
  lemma TailLineMissing(t: Target, blake3: Hasher, root: Node, dir: Bytes, n: Bytes, x: Bytes, f: HashedFile)
    requires ValidChain(t.windows, [n]) && |n| > 0 && IsNormal(n[1..])
    requires root == Dir([Entry(n, None, File(x, None))], None)
    requires f.path == n[1..]
    ensures CheckLine(t, blake3, root, dir, EncodeLine(f)) == Some(Success(Join(t.windows, dir, n[1..])))
  {
    SplitEncodedLine(f);
    NameTail(t.windows, n);
    JoinNamesComponents(t.windows, [n[1..]]);
    JoinNamesLastPiece(t.windows, [n[1..]]);
    assert LineTarget(t.windows, f.path) == [n[1..]];
    assert |n[1..]| != |n|;
    assert FindEntry(root.entries, n[1..], 0).None?;
  }

  /** The document of the one record `f` for `n`'s tail, validated in a
      directory whose only entry is `n`, reports the tail as missing. */
  lemma TailDocumentReports(t: Target, blake3: Hasher, root: Node, dirPath: Bytes, n: Bytes, x: Bytes, f: HashedFile)
    requires ValidChain(t.windows, [n]) && |n| > 0 && PlainLine(n) && IsNormal(n[1..])
    requires root == Dir([Entry(n, None, File(x, None))], None)
    requires f.path == n[1..]
    ensures ValidateData(t, blake3, root, dirPath, Serialize([f]))
      == Success(Some([Join(t.windows, OiVei(t.windows, dirPath), n[1..])]))
  {
    assert PlainPaths([f]) by {
      assert forall i :: 0 <= i < |n[1..]| ==> n[1..][i] == n[i + 1];
      assert PlainLine([f][0].path);
    }
    LinesOfSerialize([f]);
    var line := EncodeLine(f);
    assert Lines(Serialize([f])) == [line];
    var dir := OiVei(t.windows, dirPath);
    var p := Join(t.windows, dir, n[1..]);
    TailLineMissing(t, blake3, root, dir, n, x, f);
    var outs := Outcomes(t, blake3, root, dir, [line]);
    assert outs == [Some(Success(p))];
    CollectOne<Bytes, IoError>(p);
  }

  /** Validating, below a `dir_path` the walk put no separator after, the document
      hashed from a directory with one file at its top reports that file as
      missing, though nothing changed: `ab` below `d/` is recorded as `b`,
      and `d/b` is reported. */
  lemma AsWrittenDocumentReports(t: Target, blake3: Hasher, root: Node, dirPath: Bytes, n: Bytes, x: Bytes, records: seq<HashedFile>)
    requires !NeedsSep(t.windows, dirPath)
    requires |n| > 0 && !Hidden(n) && PlainLine(n) && IsNormal(n[1..])
    requires root == Dir([Entry(n, None, File(x, None))], None)
    requires IsSnapshot(t, blake3, root, dirPath, records)
    ensures ValidateData(t, blake3, root, dirPath, Serialize(records))
      == Success(Some([Join(t.windows, OiVei(t.windows, dirPath), n[1..])]))
  {
    FilesOfOne(root, n, x);
    SnapshotOfOne(t, blake3, root, dirPath, n, records);
    TopRecord(t, blake3, root, dirPath, n, records[0]);
    assert records == [records[0]];
    TailDocumentReports(t, blake3, root, dirPath, n, x, records[0]);
  }

  /** Below `d/`, the document for a single file `ab` reports `d/b`. */
  lemma AsWrittenDocumentExample(t: Target, blake3: Hasher, root: Node, x: Bytes, records: seq<HashedFile>)
    requires !t.windows
    requires root == Dir([Entry([0x61, 0x62], None, File(x, None))], None)
    requires IsSnapshot(t, blake3, root, [0x64, SLASH], records)
    ensures ValidateData(t, blake3, root, [0x64, SLASH], Serialize(records)) == Success(Some([[0x64, SLASH, 0x62]]))
  {
    AsWrittenDocumentReports(t, blake3, root, [0x64, SLASH], [0x61, 0x62], x, records);
    assert Join(false, OiVei(false, [0x64, SLASH]), [0x61, 0x62][1..]) == [0x64, SLASH, 0x62];
  }
}

=== FILE: wrappers.dfy ===
/** Optional values and fallible results, the model's stand-ins for Rust's
    `Option` and `std::io::Result`. */
module Wrappers {

  datatype Option<+T> = None | Some(value: T)

  /** `Success(v)` is Rust's `Ok(v)`, `Failure(e)` its `Err(e)`. Supports `:-`. */
  datatype Result<+T, +E> = Success(value: T) | Failure(error: E) {

    predicate IsFailure() {
      Failure?
    }

    function PropagateFailure<U>(): Result<U, E>
      requires Failure?
    {
      Failure(error)
    }

    function Extract(): T
      requires Success?
    {
      value
    }
  }
}
